=== FILE: README.md ===
# Fiber REST API: authentication core and accounts demo, modelled in Dafny

This project models the core of a Go REST backend built on Fiber, GORM,
golang-jwt v5 and bcrypt. The model covers:

- **configuration**: `getEnv` and `LoadEnv`, with the `.env` merge.
- **the user record**: its bcrypt hashing, its JSON view and the request bodies.
- **the two services**:
  - the auth service: registration, login, token issue and token validation;
  - the user service: list, get, create, partial update and delete.
- **the authentication middleware**: `Protected` and `AdminOnly`.
- **the two controllers**: they parse path ids with `strconv.ParseUint(s, 10, 32)` and map service outcomes to HTTP statuses.
- **the handler chains the router builds**.
- **the accounts demo of `main.go`**: `addAccounts`, `transferFunds`, `deleteAccounts` and the choice of the transfer pair.

Everything is a pure function over immutable values:

- **The user table** is a `Store`. It holds a map from id to `User`, the next auto-increment id and an optional database fault. A fault makes every call fail with it.
- **A request** becomes an explicit value. A handler's outcome is a `Step`: it answers, passes on to the next handler with its locals, or panics on a failed type assertion.
- **bcrypt and the JWT codec** are records of functions. The lemmas that need their correctness state it as a precondition: `Models.Sound`, `Models.Truncates` (only the first 72 bytes of a password count), `Models.CollisionFree` and `Jwt.Coherent`.
- **The clock, bcrypt's salt, the database's generated UUIDs, `rand.Intn` draws and the order rows come back in** are all parameters.

Modules follow the packages:

| module | file | covers |
|---|---|---|
| `Results` | `results.dfy` | `Option`, `Result` |
| `Text` | `text.dfy` | `strings.Replace(s, old, new, 1)` and `strconv.ParseUint(s, 10, 32)` |
| `Config` | `config.dfy` | `config/config.go` |
| `Models` | `models.dfy` | `models/user.go` |
| `Repository` | `repository.dfy` | the user repository's assumed behaviour |
| `Jwt` | `jwt.dfy` | `jwt.Parse` of golang-jwt v5 |
| `AuthService`, `UserService` | `auth_service.dfy`, `user_service.dfy` | `services/` |
| `Http` | `http.dfy` | locals, the response envelope, `Step` |
| `Middleware` | `middleware.dfy` | `middleware/auth.go` |
| `UserController`, `AuthController` | `user_controller.dfy`, `auth_controller.dfy` | `controllers/` |
| `Routes` | `routes.dfy` | `routes/routes.go` |
| `Accounts` | `accounts.dfy` | the accounts demo in `main.go` |

The code behaves as follows in places a reader might not expect:

- **`Protected` removes the first `"Bearer "` anywhere in the header**, not only a leading one (`Middleware.ExtractRemovesInnerBearer`).
- **A duplicate registration is a 500**, not a conflict status.
- **An update of a missing user is a 500**, not a 404.
- **A user missing behind a valid token** gets the message "User not found".
- **`AdminOnly` panics** when no string role is attached, rather than being undefined.
- **Roles are free strings**; nothing restricts them to "user" and "admin".
- **The profile route never answers 200**: as registered it panics behind `Protected` (`Routes.ProfileRoutePanics`); see Findings.

## Model

| member | source | states |
|---|---|---|
| Text.IndexFrom | middleware/auth.go:31 | The result is the first index at or after `from` where the pattern occurs, or None when it occurs nowhere there. |
| Text.ReplaceFirst | middleware/auth.go:31 | A string without the target comes back unchanged. A string that starts with the target loses exactly that prefix. |
| Text.ReplaceFirstAt | middleware/auth.go:31 | The replacement happens at the first occurrence and leaves the text before and after it unchanged. |
| Text.ReplaceFirstInverse | middleware/auth.go:31 | Putting the removed target back where the first occurrence was gives the original string. |
| Text.DecimalValueMonotone | controllers/user_controller.go:30 | Extending a digit string never lowers its value, which is why overflow can be detected digit by digit. |
| Text.LeadingZero | controllers/user_controller.go:30 | A leading zero does not change a decimal value. |
| Text.ParseUint32 | controllers/user_controller.go:30 | Parsing succeeds iff the input is non-empty, all decimal digits, and at most 2^32-1; the value is the decimal value. Every failure is a syntax or range error. |
| Text.ScanUint32 | controllers/user_controller.go:30 | The digit-by-digit loop, with its per-digit overflow check, returns exactly `ParseUint32`, on every input and for both error kinds. |
| Text.FormatDecimal | controllers/user_controller.go:30 | Its output is a non-empty digit string whose decimal value is the input. |
| Text.ParseFormatRoundTrip | controllers/user_controller.go:30 | Every 32-bit id written in decimal parses back to itself. |
| Text.ParseIgnoresLeadingZero | controllers/user_controller.go:30 | Prefixing "0" never changes the parse result, errors included, so "007" and "7" address the same user. |
| Config.GetEnv | config/config.go:32-38 | A set, non-empty variable gives its value. An unset or empty one gives the default. |
| Config.LoadEnv | config/config.go:18-30 | The port is never empty. A missing .env file logs exactly one line and uses the process environment alone. A present file logs nothing. |
| Config.ProcessEnvWins | config/config.go:18-30 | For each of DATABASE_URL, PORT and JWT_SECRET, a non-empty process variable beats the .env file. |
| Config.DotenvFillsGaps | config/config.go:18-30 | For each of the three settings, the .env file supplies a variable the process lacks; an empty value there gives the default. |
| Config.EmptyProcessVariableMasksDotenv | config/config.go:18-38 | For each of the three settings, a process variable set to "" blocks the .env value and then reads as unset, so the default wins. |
| Config.DefaultWhenUnset | config/config.go:18-30 | With a `.env` file or without one, each of the three settings named in neither place takes its default: "8081" for PORT, "" for DATABASE_URL and JWT_SECRET. |
| Config.EmptySecretByDefault | config/config.go:18-30 | With no JWT_SECRET anywhere, the signing secret is the empty string. |
| Models.BcryptAssumptionsConsistent | models/user.go:24-38 | Some hasher satisfies all three bcrypt assumptions, so the lemmas that assume them are not vacuous. |
| Models.HashPassword | models/user.go:24-32 | It succeeds iff bcrypt does. On success only the password changes, to the hash of the old one. On failure the user is unchanged and the error is bcrypt's. |
| Models.CheckPassword | models/user.go:35-38 | With a sound, truncating, collision-free bcrypt, a stored hash of `p` accepts exactly the passwords that agree with `p` in their first 72 bytes. |
| Models.HashThenCheck | models/user.go:24-38 | After hashing, the original password checks, a password differing from it in the first 72 bytes fails, and one agreeing there checks. |
| Models.LongerPasswordAccepted | models/user.go:24-38 | The hash of a 72-byte password also accepts that password followed by anything. |
| Models.ToJson | models/user.go:9-17 | The JSON keys are exactly id, name, email, role, created_at and updated_at, in that order, and reading the values back (with the password supplied separately) gives the user itself. |
| Models.JsonDeterminesUser | models/user.go:9-17 | Two users have the same JSON iff they agree on every field but the password. |
| Models.JsonOmitsPassword | models/user.go:13 | "password" is not a key, and changing the password does not change the JSON. |
| Repository.FindByID | services/user_service.go:29-31 | It finds the row iff there is no fault and the id is stored. Otherwise it returns the fault or "record not found". |
| Repository.FindByEmail | services/auth_service.go:30-33 | It finds a row iff there is no fault and some row has the email. The row found carries that email and is the stored row. |
| Repository.FindAll | services/user_service.go:25-27 | With no fault it returns one row per id of the enumeration, and a user is listed iff it is stored. |
| Repository.Create | models/user.go:9-17 | Insertion under a fresh id, with the 'user' role default and both timestamps set. A taken email or a fault writes nothing. Unique emails are preserved. |
| Repository.Update | services/user_service.go:73-75 | The row is saved with its updated timestamp refreshed. An email held by another row writes nothing. Unique emails are preserved. |
| Repository.Delete | services/user_service.go:86 | Exactly that id is removed and the other rows are unchanged. A fault writes nothing. |
| Jwt.Parse | services/auth_service.go:88-95 | A token is accepted iff it decodes, the key function gives a key, the signature verifies under it, and `exp` is absent or later than now. A key-function refusal is "unverifiable". |
| AuthService.IssuedClaims | services/auth_service.go:76-83 | The claims name the user's id, email and role, and expire exactly three days after issue. |
| AuthService.GenerateToken | services/auth_service.go:76-86 | With a coherent codec, the token decodes under HS256 to the issued claims and its signature checks under the secret. |
| AuthService.KeyFor | services/auth_service.go:89-94 | A key is handed out iff the method is HMAC, and that key is the secret. |
| AuthService.ValidateToken | services/auth_service.go:88-95 | An accepted token is HMAC-signed, verifies under the secret and is not expired. A decodable non-HMAC token is refused as unverifiable. |
| AuthService.TokenRoundTrip | services/auth_service.go:76-95 | A token the service issued validates before expiry, with the user's id, email and role and an expiry of 72 hours (259200 seconds). |
| AuthService.TokenExpires | services/auth_service.go:76-95 | From the expiry instant on, the same token is rejected as expired. |
| AuthService.Register | services/auth_service.go:28-56 | A known email gives "user already exists" and writes nothing. Any error carries no user and no token. Success inserts the hashed user with role "user" and returns the token signed for it. With no fault, a free email and a working hash, the row is inserted, and the call succeeds iff the token can be signed. |
| AuthService.Login | services/auth_service.go:58-74 | An unknown email and a wrong password both give "Invalid credentials". Success requires the password to check and returns the stored user and its token. When the password checks, the call succeeds iff the token can be signed. |
| AuthService.FindInserted | services/auth_service.go:28-56 | The row registration inserted is the one later found by its email. |
| AuthService.RegisterThenLogin | services/auth_service.go:28-74 | Logging in after registering, with the same password, returns the registered user. |
| AuthService.RegisterThenWrongPassword | services/auth_service.go:58-74 | After registering, a password differing from the registered one in the first 72 bytes is refused with "Invalid credentials". |
| AuthService.RegisterThenLongerPassword | services/auth_service.go:58-74 | After registering, a guess agreeing with the registered password in its first 72 bytes logs in as the registered user. |
| UserService.GetAllUsers | services/user_service.go:25-27 | It succeeds iff there is no fault. On success every stored user is listed and nothing else is. |
| UserService.GetUserByID | services/user_service.go:29-31 | It returns the stored row iff there is no fault and the id is stored. |
| UserService.CreateUser | services/user_service.go:33-57 | A known email is refused with nothing written. A hashing failure writes nothing. Success inserts the hashed user with role "user". With no fault, a free email and a working hash, it succeeds. |
| UserService.ApplyUpdate | services/user_service.go:65-71 | A non-empty name or email in the request replaces the stored one. An empty field keeps it. Id, password, role and timestamps are unchanged. |
| UserService.ApplyUpdateIdempotent | services/user_service.go:65-71 | Merging the same request twice equals merging it once. |
| UserService.ApplyEmptyUpdate | services/user_service.go:65-71 | An empty request merges to the stored user itself. |
| UserService.UpdateUser | services/user_service.go:59-78 | An id that cannot be loaded gives "User not found" with no change. It succeeds iff there is no fault, the id is stored and no other row holds the merged email. Success writes the merged row under that id alone. |
| UserService.UpdateUserIdempotent | services/user_service.go:59-78 | Repeating an update stores the same row as doing it once, apart from the updated timestamp. |
| UserService.DeleteUser | services/user_service.go:80-87 | An id that cannot be loaded gives "User not found". It succeeds iff there is no fault and the id is stored, and success removes exactly that id. |
| Middleware.ExtractToken | middleware/auth.go:31 | A header without "Bearer " is the token as it is. A header with one loses exactly its length. |
| Middleware.ExtractFromBearer | middleware/auth.go:30-31 | "Bearer " + t yields t, whatever t contains. |
| Middleware.ExtractWithoutBearer | middleware/auth.go:31 | A header without "Bearer " is validated as it is. |
| Middleware.ExtractRemovesInnerBearer | middleware/auth.go:31 | "Bearer " is cut out even when it is not at the front. |
| Middleware.Protected | middleware/auth.go:21-60 | It never panics and each failure is a 401. Missing header, rejected token and unknown user each hold iff their own condition does. It continues iff all checks pass, attaching the stored row's user, id and role and keeping the other locals. |
| Middleware.AdminOnly | middleware/auth.go:62-71 | It panics iff no string role is attached. It continues iff the role is "admin", with the locals untouched. Otherwise it answers 403 "Admin access required". |
| Middleware.AdminOnlyAfterProtected | middleware/auth.go:54-71 | Behind `Protected`, `AdminOnly` never panics and admits exactly the users whose stored role is "admin". |
| Middleware.ClaimedRoleIgnored | middleware/auth.go:41-71 | A token claiming "admin" for a user stored as "user" is refused with 403. |
| Middleware.DeletedUserRejected | middleware/auth.go:44-52 | A valid, unexpired token for a deleted user gets 401 "User not found". |
| Middleware.IssuedTokenAuthenticates | middleware/auth.go:21-60 | An issued, unexpired token for a stored user continues and attaches that user's current row. |
| UserController.GetAllUsers | controllers/user_controller.go:20-27 | A fault gives a 500 with its message. Otherwise a 200 lists as many users as are stored and includes every one of them. |
| UserController.GetUser | controllers/user_controller.go:29-41 | An unparsable id gives 400 and a service error gives 404. A 200 happens iff the id parses and is stored, and it carries that user's JSON. |
| UserController.UpdateUser | controllers/user_controller.go:43-60 | A bad id, then a bad body, gives 400 with nothing written. Service errors give 500 with their message. Success gives 200 with the updated user. |
| UserController.UpdateMissingIs500 | controllers/user_controller.go:43-60 | Updating an absent user is answered 500 "User not found". |
| UserController.DeleteUser | controllers/user_controller.go:63-75 | A bad id gives 400 and service errors give 500. A 200 happens iff the id parses and is stored, and exactly that user is removed. |
| UserController.OversizedIdRejected | controllers/user_controller.go:29-33 | "4294967296" does not fit 32 bits and is a 400 before any lookup. |
| AuthController.Register | controllers/auth_controller.go:24-37 | A bad body gives 400 "invalid request body". Service errors give 500 with their message. Success gives 201 with the user and the token. |
| AuthController.DuplicateRegisterIs500 | controllers/auth_controller.go:24-37 | Registering a known email is a 500 "user already exists" and writes nothing. |
| AuthController.Login | controllers/auth_controller.go:39-52 | A bad body gives 400. Service errors give 401 with their message. Success gives 200 with the user and the token. |
| AuthController.LoginFailuresIndistinguishable | controllers/auth_controller.go:39-52 | An unknown email and a wrong password get the identical 401. |
| AuthController.GetProfile | controllers/auth_controller.go:54-64 | As written: it panics iff `user_id` is missing or not a string. An unparsable id is a 400. A parsed id with no row is a 404 "User not found", and one with a row is a 200 with that user's JSON. |
| AuthController.ProfileAlwaysPanics | controllers/auth_controller.go:54-56 | Behind `Protected`, which stores `user_id` as an unsigned integer, the handler as written always panics. |
| AuthController.GetProfileTyped | controllers/auth_controller.go:54-64 | Reading `user_id` with the type `Protected` gives it: a missing row gives 404, and a found row gives 200 with that user. |
| AuthController.ProfileTypedServesCaller | controllers/auth_controller.go:54-64 | Behind `Protected`, the typed handler answers 200 with the authenticated user. |
| Routes.Behind | routes/routes.go:41-52 | Behind `Protected`, list, get and update run their registered handlers and return exactly their answer and store, and an admin's delete runs the delete handler. A non-admin's delete is a 403 with nothing removed. The registered profile handler panics and writes nothing. |
| Routes.Serve | routes/routes.go:35-52 | No chain ends in a dangling `Next`. A request panics iff it is a profile request that `Protected` lets through. A protected route without a header is a 401 that changes nothing. A failing `Protected` answer is passed through unchanged. Only register, update and delete write. |
| Routes.ServeCorrected | routes/routes.go:35-52 | With the typed profile handler, every request is answered. Wherever the registered chain answers, the corrected one gives the same answer and store. |
| Routes.ProfileRoutePanics | routes/routes.go:41-42 | As registered, an authenticated profile request panics with an interface conversion and leaves the store unchanged. |
| Routes.NonAdminCannotDelete | routes/routes.go:50-52 | An authenticated user whose stored role is not "admin" gets 403 on delete and the store is unchanged. |
| Routes.AdminCanDelete | routes/routes.go:50-52 | An authenticated user whose stored role is "admin" deleting a stored user by its decimal id gets a 200, and exactly that row is removed. |
| Routes.AuthenticatedReachesHandler | routes/routes.go:46-49 | Once `Protected` lets a request through, list, get and update give exactly the answer and store of their registered handler. |
| Routes.ProfileRouteServesCaller | controllers/auth_controller.go:54-64 | On the corrected chain, an authenticated profile request gets a 200 with the caller's stored row. |
| Routes.RegisterThenProfile | routes/routes.go:37-42 | Registering gives a 201 with a token. On the corrected chain, that token as a bearer header before it expires gets a 200 profile with the registered user's JSON. |
| Accounts.Load | main.go:55-56 | The stored row, or the zero-valued account when the lookup fails. |
| Accounts.Save | main.go:64-70 | It succeeds iff there is no fault. It writes under the account's id, or under the generated id when the id is nil. |
| Accounts.TransferFunds | main.go:50-74 | A source balance below the amount errors with nothing saved. A fault saves nothing. Between existing accounts with enough funds, the source is debited and then the destination credited from the balance read before the debit. |
| Accounts.TransferConservesDistinct | main.go:47-74 | Between two distinct existing accounts, a successful transfer keeps the total of all balances. |
| Accounts.SelfTransferCreatesMoney | main.go:50-74 | As written, a transfer from an account to itself succeeds and raises that account and the total by the amount. |
| Accounts.TransferFundsConserving | main.go:47-74 | The intended transfer: insufficient funds error with nothing saved, and a self-transfer changes nothing. Between distinct existing funded accounts it succeeds, debits the source and credits the destination by the amount, and keeps every other balance. |
| Accounts.TransferConserves | main.go:47-74 | Between any two existing accounts, the intended transfer keeps the total. |
| Accounts.TransferTouchesOnlyPair | main.go:47-74 | A funded transfer as written keeps the same ids and every balance other than the pair's. |
| Accounts.PickAccounts | main.go:140-141 | There is no pair iff nothing is tracked. The source is the first tracked id and the destination is a tracked id. |
| Accounts.PickCanChooseSameAccount | main.go:140-141 | A draw of 0 picks the first account as both source and destination. |
| Accounts.AddFrom | main.go:35-42 | The loop from iteration i tracks a prefix of the new ids from i on, all of them iff no error, and leaves the fault as it was. |
| Accounts.Created | main.go:35-42 | The tracked ids after the loop are the ones before it followed by the ids it created. |
| Accounts.AddFromStep | main.go:36-41 | A successful iteration inserts `newIds[i]` with its balance, tracks it first, and the loop continues from i+1. |
| Accounts.AddFromKeys | main.go:35-42 | The keys after the loop are the old keys plus exactly the created ids. |
| Accounts.AddFromFresh | main.go:38-41 | Every created id was absent from the table, because a duplicate key stops the loop. |
| Accounts.AddFromBalances | main.go:35-42 | Rows already present keep their balances, and every added balance lies in [amount, amount+999]. |
| Accounts.AddAccounts | main.go:32-45 | Success tracks all numRows new ids in order and failure tracks the ones created. Old rows are untouched and every new balance is the transfer amount plus a draw below 1000. |
| Accounts.DeleteAccounts | main.go:86-94 | With no fault, exactly the listed ids are removed and the rest is unchanged. A fault changes nothing. |
| Accounts.DeleteUndoesAdd | main.go:85-94 | Deleting the tracked ids after `addAccounts`, finished or stopped early, restores the table. |
| Accounts.Demo | main.go:115-166 | The run panics iff no account was created: always when the database is faulty, never when it is healthy and the first new id is fresh. Otherwise it tracks what `addAccounts` created. |
| Accounts.DeleteRestores | main.go:86-94 | Deleting ids that were added to a table whose old rows kept their balances gives back that table. |
| Accounts.DemoLeavesTableUnchanged | main.go:115-166 | A run that does not panic leaves the accounts table exactly as it found it. |

## Left out

- The `repositories` package is not part of this model. `Repository` states the behaviour the core relies on, that of a GORM table:
  - a unique email column;
  - auto-increment ids;
  - the `'user'` role default;
  - timestamps set on create and update;
  - "record not found" on a missing row.
- The `utils` package is not part of this model. Its two responses are taken to be `{success, message, data}` and `{success: false, error}`.
- bcrypt and the HMAC and JSON internals of JWT are abstract functions. The cost factor and constant-time comparison are not modelled.
- Models.Significant: passwords are character sequences, and bcrypt's 72-byte cut-off is taken over characters; a multi-byte UTF-8 character counts as one.
- Jwt.Parse: only `exp` is checked. `nbf` and `iat` are not modelled, because the tokens issued here carry neither.
- The round trip of `user_id` through a JSON number (float64) and back into a GORM primary-key query is modelled as the exact natural number.
- Tokens whose `user_id` claim is not a JSON number (a string, or no claim at all) are outside the model: `Jwt.Claims` carries a natural-number id, so what GORM's `First` does with such a claim at middleware/auth.go:47 is not represented. A token signed under the empty default secret can carry one.
- `c.BodyParser`'s result is a parameter (a parsed body or an error). Struct `validate` tags are enforced nowhere in the source and are not modelled.
- Fiber's route matching, header case-insensitivity, and requests to unknown paths are not modelled. The health route is not in these files.
- Time is whole seconds passed as a parameter. `time.Time` and the wall clock are not modelled; Models.ToJson writes a timestamp as that number, where encoding/json writes an RFC 3339 string.
- Concurrency is not modelled. Each operation is atomic over the store, so the duplicate-email race between the check and the insert is not represented. Under a race, the unique constraint in `Repository.Create` is what refuses the second insert.
- `crdbgorm.ExecuteTx` transactions and retries are not modelled; the model runs each call once on the ledger. `printBalance` and all other logging are left out.
- Accounts.TransferFunds: balances are unbounded integers; Go's 64-bit `int` wrap-around on the debit and credit at main.go:62-63 is not modelled, so the conservation lemmas hold only while balances stay within int64 (the demo's stay below 1,200).
- Accounts.TransferFunds: the insufficient-funds error message omits the formatted account id and numbers.
- Accounts.Load: it looks rows up by UUID value; the driver's encoding of the UUID argument is not modelled.
- Accounts.Demo: the random index is `draw` reduced modulo the number of ids, rather than a draw from `rand.Intn`.
- The comment "7 days" next to the 72-hour expiry is not followed; the code's 72 hours is.

## Findings

| source | as written | input that shows it | evidently intended | confidence | as-written member | corrected member |
|---|---|---|---|---|---|---|
| controllers/auth_controller.go:55 | asserts `c.Locals("user_id").(string)`, but `Protected` stores `user.ID`, an unsigned integer (middleware/auth.go:56) | any `GET /api/v1/profile` with a valid token for a stored user: the type assertion panics | read `user_id` as the integer `Protected` stored and answer 200 with that user | high; not executed | AuthController.ProfileAlwaysPanics | AuthController.GetProfileTyped |
| main.go:55-70 | both accounts are loaded before either save, so when `fromId == toId` the credited copy overwrites the debited one | fromId == toId (a draw of 0 at main.go:141), balance 500, amount 100: the balance becomes 600 | a transfer to the same account leaves every balance, and the total, unchanged | high; not executed | Accounts.SelfTransferCreatesMoney | Accounts.TransferFundsConserving |

=== FILE: accounts.dfy ===
/**
 * The accounts demo of the entry point: an `accounts` table of UUID-keyed
 * balances, the transfer between two accounts, the bulk insert that creates
 * the demo rows and the delete that removes them again. UUIDs are naturals,
 * with 0 standing for the nil UUID; the database's generated UUIDs and the
 * random draws are parameters.
 */
module Accounts {
  import opened Results

  type AccountId = nat

  /** `uuid.Nil`, the id of a zero-valued `Account`. */
  const NilId: AccountId := 0

  datatype Account = Account(id: AccountId, balance: int)

  /** The `accounts` table; `fault`, when present, makes every database call fail with it. */
  datatype Ledger = Ledger(balances: map<AccountId, int>, fault: Option<string>)

  const ErrInsufficient := "balance is lower than transfer amount"
  const ErrDuplicateKey := "duplicate key value violates unique constraint"

  /** The sum of all balances. */
  ghost function Total(m: map<AccountId, int>): int
    decreases |m|
  {
    if m == map[] then 0
    else
      var k :| k in m;
      assert |m - {k}| < |m| by { assert m.Keys == (m - {k}).Keys + {k}; }
      m[k] + Total(m - {k})
  }

  /** The sum may be taken starting from any account. */
  lemma {:induction false} TotalRemove(m: map<AccountId, int>, k: AccountId)
    requires k in m
    ensures Total(m) == m[k] + Total(m - {k})
    decreases |m|
  {
    assert |m - {k}| < |m| by { assert m.Keys == (m - {k}).Keys + {k}; }
    var j :| j in m && Total(m) == m[j] + Total(m - {j});
    if j != k {
      assert |m - {j}| < |m| by { assert m.Keys == (m - {j}).Keys + {j}; }
      TotalRemove(m - {j}, k);
      TotalRemove(m - {k}, j);
      assert m - {j} - {k} == m - {k} - {j};
    }
  }

  /** Changing one existing balance changes the sum by the difference. */
  lemma TotalUpdate(m: map<AccountId, int>, k: AccountId, v: int)
    requires k in m
    ensures Total(m[k := v]) == Total(m) - m[k] + v
  {
    TotalRemove(m[k := v], k);
    TotalRemove(m, k);
    assert m[k := v] - {k} == m - {k};
  }

  /**
   * `db.First(&acct, id)` with its error ignored: the stored row, or the
   * zero-valued `Account` when the lookup fails.
   */
  function Load(l: Ledger, id: AccountId): (a: Account)
    ensures l.fault.None? && id in l.balances ==> a == Account(id, l.balances[id])
    ensures !(l.fault.None? && id in l.balances) ==> a == Account(NilId, 0)
  {
    if l.fault.None? && id in l.balances then Account(id, l.balances[id]) else Account(NilId, 0)
  }

  /**
   * `db.Save(&acct)`: an account with the nil id is inserted under the id the
   * database generates (`generated`); any other is written under its own id.
   */
  function Save(l: Ledger, a: Account, generated: AccountId): (r: Result<Ledger>)
    ensures r.Ok? <==> l.fault.None?
    ensures r.Err? ==> r.error == l.fault.value
    ensures r.Ok? ==> r.value.fault == l.fault
    ensures r.Ok? ==> r.value.balances == l.balances[(if a.id == NilId then generated else a.id) := a.balance]
  {
    if l.fault.Some? then Err(l.fault.value)
    else Ok(l.(balances := l.balances[if a.id == NilId then generated else a.id := a.balance]))
  }

  /** The ledger after an operation and the error it returned, Go style. */
  datatype Outcome = Outcome(ledger: Ledger, err: Option<string>)

  /**
   * `transferFunds` as written: load both accounts, refuse when the source
   * balance is below the amount, then save the debited source and the
   * credited destination, each loaded before either write. A failed second
   * save leaves the first in place. `gen1` and `gen2` are the ids the
   * database would generate if an account was not found.
   */
  function TransferFunds(l: Ledger, from: AccountId, to: AccountId, amount: int, gen1: AccountId, gen2: AccountId)
    : (r: Outcome)
    ensures Load(l, from).balance < amount ==> r == Outcome(l, Some(ErrInsufficient))
    ensures r.err.None? ==> l.fault.None? && r.ledger.fault.None?
    ensures l.fault.Some? ==> r == Outcome(l, Some(if Load(l, from).balance < amount then ErrInsufficient else l.fault.value))
    ensures l.fault.None? && from in l.balances && to in l.balances && from != NilId && to != NilId
            && amount <= l.balances[from] ==>
              && r.err.None?
              && r.ledger.balances
                 == l.balances[from := l.balances[from] - amount][to := l.balances[to] + amount]
  {
    var fromAccount := Load(l, from);
    var toAccount := Load(l, to);
    if fromAccount.balance < amount then Outcome(l, Some(ErrInsufficient))
    else
      match Save(l, fromAccount.(balance := fromAccount.balance - amount), gen1)
      case Err(e) => Outcome(l, Some(e))
      case Ok(l1) =>
        match Save(l1, toAccount.(balance := toAccount.balance + amount), gen2)
        case Err(e) => Outcome(l1, Some(e))
        case Ok(l2) => Outcome(l2, None)
  }

  /** Between two distinct existing accounts a transfer moves money without creating any. */
  lemma TransferConservesDistinct(l: Ledger, from: AccountId, to: AccountId, amount: int, gen1: AccountId, gen2: AccountId)
    requires l.fault.None? && from in l.balances && to in l.balances && from != NilId && to != NilId
    requires from != to
    ensures TransferFunds(l, from, to, amount, gen1, gen2).err.None? ==>
              Total(TransferFunds(l, from, to, amount, gen1, gen2).ledger.balances) == Total(l.balances)
  {
    if amount <= l.balances[from] {
      var m1 := l.balances[from := l.balances[from] - amount];
      TotalUpdate(l.balances, from, l.balances[from] - amount);
      TotalUpdate(m1, to, l.balances[to] + amount);
    }
  }

  /**
   * A transfer from an account to itself: both loads see the same balance,
   * the second save overwrites the first, and the account ends up richer
   * by `amount`.
   */
  lemma SelfTransferCreatesMoney(l: Ledger, id: AccountId, amount: int, gen1: AccountId, gen2: AccountId)
    requires l.fault.None? && id in l.balances && id != NilId
    requires amount <= l.balances[id]
    ensures TransferFunds(l, id, id, amount, gen1, gen2).err.None?
    ensures TransferFunds(l, id, id, amount, gen1, gen2).ledger.balances[id] == l.balances[id] + amount
    ensures Total(TransferFunds(l, id, id, amount, gen1, gen2).ledger.balances) == Total(l.balances) + amount
  {
    assert l.balances[id := l.balances[id] - amount][id := l.balances[id] + amount]
        == l.balances[id := l.balances[id] + amount];
    TotalUpdate(l.balances, id, l.balances[id] + amount);
  }

  /**
   * The transfer as intended: moving money from an account to itself changes
   * nothing; distinct accounts go through `TransferFunds`.
   */
  function TransferFundsConserving(l: Ledger, from: AccountId, to: AccountId, amount: int, gen1: AccountId, gen2: AccountId)
    : (r: Outcome)
    ensures Load(l, from).balance < amount ==> r == Outcome(l, Some(ErrInsufficient))
    ensures from == to ==> r.ledger == l
    ensures l.fault.None? && from in l.balances && to in l.balances && from != NilId && to != NilId
            && amount <= l.balances[from] ==>
              && r.err.None?
              && r.ledger.balances.Keys == l.balances.Keys
              && r.ledger.balances[from] == l.balances[from] - (if from == to then 0 else amount)
              && r.ledger.balances[to] == l.balances[to] + (if from == to then 0 else amount)
              && forall k :: k in l.balances && k != from && k != to ==> r.ledger.balances[k] == l.balances[k]
  {
    if from == to then
      if Load(l, from).balance < amount then Outcome(l, Some(ErrInsufficient)) else Outcome(l, None)
    else TransferFunds(l, from, to, amount, gen1, gen2)
  }

  /** Between any two existing accounts, the intended transfer never changes the total. */
  lemma TransferConserves(l: Ledger, from: AccountId, to: AccountId, amount: int, gen1: AccountId, gen2: AccountId)
    requires l.fault.None? && from in l.balances && to in l.balances && from != NilId && to != NilId
    ensures Total(TransferFundsConserving(l, from, to, amount, gen1, gen2).ledger.balances) == Total(l.balances)
  {
    if from != to {
      TransferConservesDistinct(l, from, to, amount, gen1, gen2);
    }
  }

  /**
   * The pair of accounts the entry point transfers between: the first tracked
   * id, and the tracked id at a random index `draw` (`rand.Intn(len)`). There
   * is no pair when nothing is tracked (indexing the empty slice panics).
   */
  function PickAccounts(acctIds: seq<AccountId>, draw: nat): (r: Option<(AccountId, AccountId)>)
    requires acctIds != [] ==> draw < |acctIds|
    ensures r.None? <==> acctIds == []
    ensures r.Some? ==> r.value.0 == acctIds[0] && r.value.1 in acctIds
  {
    if acctIds == [] then None else Some((acctIds[0], acctIds[draw]))
  }

  /** Whenever the draw is 0 the entry point transfers from the first account to itself. */
  lemma PickCanChooseSameAccount(acctIds: seq<AccountId>)
    requires acctIds != []
    ensures PickAccounts(acctIds, 0) == Some((acctIds[0], acctIds[0]))
  {
  }

  /** `addAccounts`: the ledger afterwards, the tracked ids, and the error it returned. */
  datatype Added = Added(ledger: Ledger, acctIds: seq<AccountId>, err: Option<string>)

  /** The ids in a sequence, as a set. */
  function Ids(s: seq<AccountId>): set<AccountId> {
    set k | k in s
  }

  /**
   * Iterations `i` up to `rows` of the loop of `addAccounts`: each creates
   * the account `newIds[i]` (a fresh `uuid.New()`) with balance
   * `draws[i] + transferAmount` and appends its id to the tracked ids; the first
   * failing `Create` stops the loop with its error.
   */
  function AddFrom(l: Ledger, acctIds: seq<AccountId>, i: nat, rows: nat, transferAmount: int,
                   newIds: seq<AccountId>, draws: seq<nat>): (r: Added)
    requires i <= rows <= |newIds| && rows <= |draws|
    decreases rows - i
    ensures |acctIds| <= |r.acctIds| <= |acctIds| + (rows - i)
    ensures r.acctIds == acctIds + newIds[i..i + (|r.acctIds| - |acctIds|)]
    ensures r.err.None? <==> |r.acctIds| == |acctIds| + (rows - i)
    ensures r.ledger.fault == l.fault
  {
    if i == rows then Added(l, acctIds, None)
    else if l.fault.Some? then Added(l, acctIds, l.fault)
    else if newIds[i] in l.balances then Added(l, acctIds, Some(ErrDuplicateKey))
    else
      var r := AddFrom(l.(balances := l.balances[newIds[i] := draws[i] + transferAmount]),
                       acctIds + [newIds[i]], i + 1, rows, transferAmount, newIds, draws);
      assert newIds[i..i + (|r.acctIds| - |acctIds|)] == [newIds[i]] + newIds[i + 1..i + (|r.acctIds| - |acctIds|)];
      r
  }

  /** The ids a run of the loop from `i` tracked. */
  function Created(l: Ledger, acctIds: seq<AccountId>, i: nat, rows: nat, transferAmount: int,
                   newIds: seq<AccountId>, draws: seq<nat>): (c: seq<AccountId>)
    requires i <= rows <= |newIds| && rows <= |draws|
    ensures AddFrom(l, acctIds, i, rows, transferAmount, newIds, draws).acctIds == acctIds + c
  {
    var r := AddFrom(l, acctIds, i, rows, transferAmount, newIds, draws);
    newIds[i..i + (|r.acctIds| - |acctIds|)]
  }

  /** One successful iteration: the row `newIds[i]` is created and tracked first. */
  lemma AddFromStep(l: Ledger, acctIds: seq<AccountId>, i: nat, rows: nat, transferAmount: int,
                    newIds: seq<AccountId>, draws: seq<nat>)
    requires i < rows <= |newIds| && rows <= |draws|
    requires l.fault.None? && newIds[i] !in l.balances
    ensures var l' := l.(balances := l.balances[newIds[i] := draws[i] + transferAmount]);
            && AddFrom(l, acctIds, i, rows, transferAmount, newIds, draws)
               == AddFrom(l', acctIds + [newIds[i]], i + 1, rows, transferAmount, newIds, draws)
            && Created(l, acctIds, i, rows, transferAmount, newIds, draws)
               == [newIds[i]] + Created(l', acctIds + [newIds[i]], i + 1, rows, transferAmount, newIds, draws)
  {
    var l' := l.(balances := l.balances[newIds[i] := draws[i] + transferAmount]);
    var c' := Created(l', acctIds + [newIds[i]], i + 1, rows, transferAmount, newIds, draws);
    var c := Created(l, acctIds, i, rows, transferAmount, newIds, draws);
    assert acctIds + c == (acctIds + [newIds[i]]) + c';
    assert acctIds + c == acctIds + ([newIds[i]] + c');
  }

  /** The ids the loop tracked are exactly the keys it added. */
  lemma {:induction false} AddFromKeys(l: Ledger, acctIds: seq<AccountId>, i: nat, rows: nat, transferAmount: int,
                                       newIds: seq<AccountId>, draws: seq<nat>)
    requires i <= rows <= |newIds| && rows <= |draws|
    decreases rows - i
    ensures AddFrom(l, acctIds, i, rows, transferAmount, newIds, draws).ledger.balances.Keys
            == l.balances.Keys + Ids(Created(l, acctIds, i, rows, transferAmount, newIds, draws))
  {
    if i < rows && l.fault.None? && newIds[i] !in l.balances {
      var l' := l.(balances := l.balances[newIds[i] := draws[i] + transferAmount]);
      var ids' := acctIds + [newIds[i]];
      AddFromKeys(l', ids', i + 1, rows, transferAmount, newIds, draws);
      AddFromStep(l, acctIds, i, rows, transferAmount, newIds, draws);
      var c' := Created(l', ids', i + 1, rows, transferAmount, newIds, draws);
      assert Ids([newIds[i]] + c') == {newIds[i]} + Ids(c');
      assert l'.balances.Keys == l.balances.Keys + {newIds[i]};
    } else {
      assert Created(l, acctIds, i, rows, transferAmount, newIds, draws) == [];
    }
  }

  /** The ids the loop tracked were not in the table before. */
  lemma {:induction false} AddFromFresh(l: Ledger, acctIds: seq<AccountId>, i: nat, rows: nat, transferAmount: int,
                                        newIds: seq<AccountId>, draws: seq<nat>)
    requires i <= rows <= |newIds| && rows <= |draws|
    decreases rows - i
    ensures var c := Created(l, acctIds, i, rows, transferAmount, newIds, draws);
            forall j :: 0 <= j < |c| ==> c[j] !in l.balances
  {
    if i < rows && l.fault.None? && newIds[i] !in l.balances {
      var l' := l.(balances := l.balances[newIds[i] := draws[i] + transferAmount]);
      AddFromFresh(l', acctIds + [newIds[i]], i + 1, rows, transferAmount, newIds, draws);
      AddFromStep(l, acctIds, i, rows, transferAmount, newIds, draws);
    }
  }

  /** Rows already in the table keep their balances, and every added balance is in range. */
  lemma {:induction false} AddFromBalances(l: Ledger, acctIds: seq<AccountId>, i: nat, rows: nat, transferAmount: int,
                                           newIds: seq<AccountId>, draws: seq<nat>)
    requires i <= rows <= |newIds| && rows <= |draws|
    requires forall j :: 0 <= j < |draws| ==> draws[j] < 1000
    decreases rows - i
    ensures var r := AddFrom(l, acctIds, i, rows, transferAmount, newIds, draws);
            && (forall k :: k in l.balances ==> k in r.ledger.balances && r.ledger.balances[k] == l.balances[k])
            && (forall k :: k in r.ledger.balances && k !in l.balances ==>
                  transferAmount <= r.ledger.balances[k] < transferAmount + 1000)
  {
    if i < rows && l.fault.None? && newIds[i] !in l.balances {
      var l' := l.(balances := l.balances[newIds[i] := draws[i] + transferAmount]);
      AddFromBalances(l', acctIds + [newIds[i]], i + 1, rows, transferAmount, newIds, draws);
    }
  }

  /**
   * `addAccounts(numRows, transferAmount)`: on success every one of the
   * `numRows` new ids is tracked in order; on failure the ids created so far
   * are. Rows already in the table are untouched, and every new balance is
   * `transferAmount` plus a draw of `rand.Intn(1000)`. A negative `numRows`
   * runs the loop zero times.
   */
  function AddAccounts(l: Ledger, acctIds: seq<AccountId>, numRows: int, transferAmount: int,
                       newIds: seq<AccountId>, draws: seq<nat>): (r: Added)
    requires numRows <= |newIds| && numRows <= |draws|
    requires forall j :: 0 <= j < |draws| ==> draws[j] < 1000
    ensures |acctIds| <= |r.acctIds| <= |acctIds| + (if numRows < 0 then 0 else numRows)
    ensures r.acctIds == acctIds + newIds[..|r.acctIds| - |acctIds|]
    ensures r.err.None? <==> |r.acctIds| - |acctIds| == (if numRows < 0 then 0 else numRows)
    ensures r.ledger.fault == l.fault
    ensures r.ledger.balances.Keys == l.balances.Keys + Ids(newIds[..|r.acctIds| - |acctIds|])
    ensures forall j :: 0 <= j < |r.acctIds| - |acctIds| ==> newIds[j] !in l.balances
    ensures forall k :: k in l.balances ==> r.ledger.balances[k] == l.balances[k]
    ensures forall k :: k in r.ledger.balances && k !in l.balances ==>
              transferAmount <= r.ledger.balances[k] < transferAmount + 1000
  {
    var rows := if numRows < 0 then 0 else numRows;
    var r := AddFrom(l, acctIds, 0, rows, transferAmount, newIds, draws);
    AddFromKeys(l, acctIds, 0, rows, transferAmount, newIds, draws);
    AddFromFresh(l, acctIds, 0, rows, transferAmount, newIds, draws);
    AddFromBalances(l, acctIds, 0, rows, transferAmount, newIds, draws);
    assert newIds[0..|r.acctIds| - |acctIds|] == newIds[..|r.acctIds| - |acctIds|];
    r
  }

  /**
   * `deleteAccounts`: one `DELETE ... WHERE id IN ids`; ids that are not in
   * the table are ignored.
   */
  function DeleteAccounts(l: Ledger, accountIds: seq<AccountId>): (r: Outcome)
    ensures r.err.None? <==> l.fault.None?
    ensures r.err.Some? ==> r.ledger == l
    ensures r.err.None? ==> r.ledger.balances.Keys == l.balances.Keys - Ids(accountIds)
    ensures r.err.None? ==> forall k :: k in r.ledger.balances ==> r.ledger.balances[k] == l.balances[k]
  {
    if l.fault.Some? then Outcome(l, l.fault)
    else Outcome(l.(balances := l.balances - Ids(accountIds)), None)
  }

  /**
   * Deleting the tracked ids undoes `addAccounts`, whether it finished or
   * stopped early: the table is back to what it was, provided nothing the
   * table held before was already tracked.
   */
  lemma DeleteUndoesAdd(l: Ledger, acctIds: seq<AccountId>, numRows: int, transferAmount: int,
                        newIds: seq<AccountId>, draws: seq<nat>)
    requires l.fault.None?
    requires numRows <= |newIds| && numRows <= |draws|
    requires forall j :: 0 <= j < |draws| ==> draws[j] < 1000
    requires forall j :: 0 <= j < |acctIds| ==> acctIds[j] !in l.balances
    ensures var added := AddAccounts(l, acctIds, numRows, transferAmount, newIds, draws);
            DeleteAccounts(added.ledger, added.acctIds).ledger == l
  {
    var added := AddAccounts(l, acctIds, numRows, transferAmount, newIds, draws);
    var m := |added.acctIds| - |acctIds|;
    var after := DeleteAccounts(added.ledger, added.acctIds).ledger;
    assert Ids(added.acctIds) == Ids(acctIds) + Ids(newIds[..m]) by {
      assert added.acctIds == acctIds + newIds[..m];
    }
    assert after.balances.Keys == l.balances.Keys;
  }

  /** The number of demo accounts and the amount moved between them. */
  const NumAccts := 5
  const TransferAmt := 100

  /** How the entry point ends: a panic on an empty id list, or the final table. */
  datatype Run = Panicked | Finished(ledger: Ledger, acctIds: seq<AccountId>)

  /**
   * The entry point's account demo: create the accounts, pick the pair,
   * transfer with `transferFunds` as written, delete what was created. Errors are
   * printed and the run goes on; with no account created, indexing the empty
   * id list panics. The random index is `draw` reduced modulo the number of
   * ids, which reaches every index.
   */
  function Demo(l: Ledger, newIds: seq<AccountId>, draws: seq<nat>, draw: nat, gen1: AccountId, gen2: AccountId)
    : (r: Run)
    requires NumAccts <= |newIds| && NumAccts <= |draws|
    requires forall j :: 0 <= j < |draws| ==> draws[j] < 1000
    ensures r.Panicked? <==> AddAccounts(l, [], NumAccts, TransferAmt, newIds, draws).acctIds == []
    ensures r.Finished? ==> r.acctIds == AddAccounts(l, [], NumAccts, TransferAmt, newIds, draws).acctIds
    ensures l.fault.Some? ==> r.Panicked?
    ensures l.fault.None? && newIds[0] !in l.balances ==> r.Finished?
  {
    var added := AddAccounts(l, [], NumAccts, TransferAmt, newIds, draws);
    if added.acctIds == [] then Panicked
    else
      var pair := PickAccounts(added.acctIds, draw % |added.acctIds|);
      var moved := TransferFunds(added.ledger, pair.value.0, pair.value.1, TransferAmt, gen1, gen2);
      Finished(DeleteAccounts(moved.ledger, added.acctIds).ledger, added.acctIds)
  }

  /**
   * A transfer between existing accounts that can afford it touches those two
   * accounts only: the same ids stay, every other balance is kept.
   */
  lemma TransferTouchesOnlyPair(l: Ledger, from: AccountId, to: AccountId, amount: int, gen1: AccountId, gen2: AccountId)
    requires l.fault.None? && from in l.balances && to in l.balances && from != NilId && to != NilId
    requires amount <= l.balances[from]
    ensures var moved := TransferFunds(l, from, to, amount, gen1, gen2).ledger;
            && moved.fault.None?
            && moved.balances.Keys == l.balances.Keys
            && forall k :: k in l.balances && k != from && k != to ==> moved.balances[k] == l.balances[k]
  {
  }

  /**
   * Removing ids that were added to `l`, when the rows of `l` kept their
   * balances, gives back `l`.
   */
  lemma DeleteRestores(l: Ledger, mid: Ledger, ids: seq<AccountId>)
    requires l.fault.None? && mid.fault.None?
    requires mid.balances.Keys == l.balances.Keys + Ids(ids)
    requires forall j :: 0 <= j < |ids| ==> ids[j] !in l.balances
    requires forall k :: k in l.balances ==> mid.balances[k] == l.balances[k]
    ensures DeleteAccounts(mid, ids).ledger == l
  {
    var after := DeleteAccounts(mid, ids).ledger;
    assert after.balances.Keys == l.balances.Keys;
  }

  /**
   * A run that does not panic leaves the table exactly as it found it: the
   * transfer only touches the new accounts, even when it credits an account
   * it debited, and the delete removes all of them.
   */
  lemma DemoLeavesTableUnchanged(l: Ledger, newIds: seq<AccountId>, draws: seq<nat>, draw: nat,
                                 gen1: AccountId, gen2: AccountId)
    requires NumAccts <= |newIds| && NumAccts <= |draws|
    requires forall j :: 0 <= j < |draws| ==> draws[j] < 1000
    requires forall j :: 0 <= j < |newIds| ==> newIds[j] != NilId
    ensures var r := Demo(l, newIds, draws, draw, gen1, gen2);
            r.Finished? ==> r.ledger == l
  {
    if Demo(l, newIds, draws, draw, gen1, gen2).Panicked? {
      return;
    }
    var added := AddAccounts(l, [], NumAccts, TransferAmt, newIds, draws);
    var ids := added.acctIds;
    var m := |ids|;
    assert ids == newIds[..m];
    var from := ids[0];
    var to := ids[draw % m];
    assert from in Ids(ids) && to in Ids(ids);
    assert from != NilId && to != NilId;
    assert from !in l.balances && to !in l.balances;
    TransferTouchesOnlyPair(added.ledger, from, to, TransferAmt, gen1, gen2);
    var moved := TransferFunds(added.ledger, from, to, TransferAmt, gen1, gen2).ledger;
    DeleteRestores(l, moved, ids);
  }
}

=== FILE: auth_controller.dfy ===
/**
 * The auth controller: registration, login and the profile handler, which
 * reads the authenticated id back out of the request locals.
 */
module AuthController {
  import opened Results
  import opened Text
  import opened Models
  import opened Repository
  import opened Jwt
  import opened Http
  import AuthService
  import UserService
  import Middleware

  const MsgInvalidBodyRegister := "invalid request body"
  const MsgInvalidBody := "Invalid request body"
  const MsgInvalidUserId := "Invalid user ID"
  const MsgUserNotFound := "User not found"

  datatype Handled = Handled(response: Response, store: Store)

  /**
   * `Register`: a bad body is a 400; every service error, a duplicate email
   * included, is a 500 with the service's message; success is a 201 with the
   * user and the token.
   */
  function Register(body: Result<RegisterDto>, st: Store, c: Codec, b: Bcrypt, salt: nat, now: int, secret: string): (r: Handled)
    requires Wf(st)
    ensures Wf(r.store)
    ensures body.Err? ==> r == Handled(ErrorResponse(StatusBadRequest, MsgInvalidBodyRegister), st)
    ensures body.Ok? ==>
      var reg := AuthService.Register(st, c, b, body.value, salt, now, secret);
      && r.store == reg.store
      && (reg.reply.err.Some? ==> r.response == ErrorResponse(StatusInternalServerError, reg.reply.err.value))
      && (reg.reply.err.None? ==> r.response == SuccessResponse(StatusCreated, "Register successfull",
                                                   AuthData(ToJson(reg.reply.user.value), reg.reply.token)))
  {
    match body
    case Err(_) => Handled(ErrorResponse(StatusBadRequest, MsgInvalidBodyRegister), st)
    case Ok(dto) =>
      var reg := AuthService.Register(st, c, b, dto, salt, now, secret);
      if reg.reply.err.Some? then Handled(ErrorResponse(StatusInternalServerError, reg.reply.err.value), reg.store)
      else Handled(SuccessResponse(StatusCreated, "Register successfull", AuthData(ToJson(reg.reply.user.value), reg.reply.token)), reg.store)
  }

  /** A duplicate registration is answered 500, not 409, and writes nothing. */
  lemma DuplicateRegisterIs500(dto: RegisterDto, st: Store, c: Codec, b: Bcrypt, salt: nat, now: int, secret: string)
    requires Wf(st)
    requires FindByEmail(st, dto.email).Ok?
    ensures Register(Ok(dto), st, c, b, salt, now, secret)
         == Handled(ErrorResponse(StatusInternalServerError, AuthService.ErrUserExists), st)
  {
  }

  /** `Login`: a bad body is a 400, a service error a 401 carrying its message, success a 200. */
  function Login(body: Result<LoginDto>, st: Store, c: Codec, b: Bcrypt, now: int, secret: string): (r: Response)
    requires Wf(st)
    ensures body.Err? ==> r == ErrorResponse(StatusBadRequest, MsgInvalidBody)
    ensures body.Ok? ==>
      var reply := AuthService.Login(st, c, b, body.value, now, secret);
      && (reply.err.Some? ==> r == ErrorResponse(StatusUnauthorized, reply.err.value))
      && (reply.err.None? ==> r == SuccessResponse(StatusOK, "Login successful", AuthData(ToJson(reply.user.value), reply.token)))
  {
    match body
    case Err(_) => ErrorResponse(StatusBadRequest, MsgInvalidBody)
    case Ok(dto) =>
      var reply := AuthService.Login(st, c, b, dto, now, secret);
      if reply.err.Some? then ErrorResponse(StatusUnauthorized, reply.err.value)
      else SuccessResponse(StatusOK, "Login successful", AuthData(ToJson(reply.user.value), reply.token))
  }

  /** An unknown email and a wrong password get the identical 401. */
  lemma LoginFailuresIndistinguishable(email: string, password: string, st: Store, c: Codec, b: Bcrypt, now: int, secret: string)
    requires Wf(st)
    requires FindByEmail(st, email).Err? || !CheckPassword(FindByEmail(st, email).value, b, password)
    ensures Login(Ok(LoginDto(email, password)), st, c, b, now, secret)
         == ErrorResponse(StatusUnauthorized, AuthService.ErrInvalidCredentials)
  {
  }

  /**
   * `GetProfile` as written: it asserts that `user_id` is a string, parses it
   * and loads that user; a non-string `user_id` panics.
   */
  function GetProfile(locals: Locals, st: Store): (r: Step)
    ensures !r.Next?
    ensures r.Panic? <==> "user_id" !in locals || !locals["user_id"].StringValue?
    ensures !r.Panic? && ParseUint32(locals["user_id"].s).Err? ==> r == Respond(ErrorResponse(StatusBadRequest, MsgInvalidUserId))
    ensures !r.Panic? && ParseUint32(locals["user_id"].s).Ok? ==>
      var id := ParseUint32(locals["user_id"].s).value;
      && (UserService.GetUserByID(st, id).Err? ==> r == Respond(ErrorResponse(StatusNotFound, MsgUserNotFound)))
      && (UserService.GetUserByID(st, id).Ok? ==>
            r == Respond(SuccessResponse(StatusOK, "User profile retrieved successfully", UserData(ToJson(st.users[id])))))
  {
    if "user_id" !in locals || !locals["user_id"].StringValue? then Panic(InterfaceConversion)
    else
      match ParseUint32(locals["user_id"].s)
      case Err(_) => Respond(ErrorResponse(StatusBadRequest, MsgInvalidUserId))
      case Ok(id) =>
        match UserService.GetUserByID(st, id)
        case Err(_) => Respond(ErrorResponse(StatusNotFound, MsgUserNotFound))
        case Ok(u) => Respond(SuccessResponse(StatusOK, "User profile retrieved successfully", UserData(ToJson(u))))
  }

  /**
   * `Protected` stores `user_id` as an unsigned integer, so behind it the
   * handler as written always panics: the profile route never answers 200.
   */
  lemma ProfileAlwaysPanics(header: string, locals: Locals, c: Codec, secret: string, now: int, st: Store)
    requires Middleware.Protected(header, locals, c, secret, now, st).Next?
    ensures GetProfile(Middleware.Protected(header, locals, c, secret, now, st).locals, st).Panic?
  {
  }

  /**
   * `GetProfile` reading `user_id` with the type `Protected` gives it: a
   * missing row is a 404 and a found one a 200 with that user.
   */
  function GetProfileTyped(locals: Locals, st: Store): (r: Step)
    ensures !r.Next?
    ensures r.Panic? <==> "user_id" !in locals || !locals["user_id"].UintValue?
    ensures !r.Panic? ==>
      var id := locals["user_id"].n;
      && (UserService.GetUserByID(st, id).Err? ==> r == Respond(ErrorResponse(StatusNotFound, MsgUserNotFound)))
      && (UserService.GetUserByID(st, id).Ok? ==>
            r == Respond(SuccessResponse(StatusOK, "User profile retrieved successfully", UserData(ToJson(st.users[id])))))
  {
    if "user_id" !in locals || !locals["user_id"].UintValue? then Panic(InterfaceConversion)
    else
      match UserService.GetUserByID(st, locals["user_id"].n)
      case Err(_) => Respond(ErrorResponse(StatusNotFound, MsgUserNotFound))
      case Ok(u) => Respond(SuccessResponse(StatusOK, "User profile retrieved successfully", UserData(ToJson(u))))
  }

  /** Behind `Protected`, the typed profile handler answers 200 with the authenticated user. */
  lemma ProfileTypedServesCaller(header: string, locals: Locals, c: Codec, secret: string, now: int, st: Store)
    requires Wf(st)
    requires Middleware.Protected(header, locals, c, secret, now, st).Next?
    ensures var u := st.users[Middleware.TokenUserId(header, c, secret, now)];
            (GetProfileTyped(Middleware.Protected(header, locals, c, secret, now, st).locals, st)
             == Respond(SuccessResponse(StatusOK, "User profile retrieved successfully", UserData(ToJson(u)))))
  {
  }
}

=== FILE: auth_service.dfy ===
/**
 * The authentication service: registration, login, token issue and token
 * validation. The signing secret, the clock and bcrypt's salt are parameters.
 */
module AuthService {
  import opened Results
  import opened Models
  import opened Repository
  import opened Jwt

  /** Tokens live 72 hours, in seconds. */
  const TokenLifetime: int := 72 * 3600

  const ErrUserExists := "user already exists"
  const ErrInvalidCredentials := "Invalid credentials"
  const ErrInvalidToken := "invalid token"

  /** What `Register` and `Login` return: a user, a token and an error, Go style. */
  datatype AuthResult = AuthResult(user: Option<User>, token: string, err: Option<string>)

  /** `Register` also writes to the store. */
  datatype Registration = Registration(store: Store, reply: AuthResult)

  /** The claims put in a token for `u` issued at `now`: who it is, and an expiry three days on. */
  function IssuedClaims(u: User, now: int): (cl: Claims)
    ensures cl.userId == u.id && cl.email == u.email && cl.role == u.role
    ensures cl.exp.Some? && cl.exp.value - now == 3 * 24 * 60 * 60
  {
    Claims(u.id, u.email, u.role, Some(now + TokenLifetime))
  }

  /**
   * `generateToken`: the claims of `u`, signed with HS256 under the secret.
   * With a coherent codec the token decodes to exactly those claims under
   * HS256 and its signature checks under the secret.
   */
  function GenerateToken(c: Codec, u: User, secret: string, now: int): (r: Result<string>)
    ensures Coherent(c) && r.Ok? ==>
      && c.decode(r.value).Some?
      && c.decode(r.value).value.alg == HS256
      && c.decode(r.value).value.claims == IssuedClaims(u, now)
      && c.verify(HS256, c.decode(r.value).value.signingInput, c.decode(r.value).value.signature, secret)
  {
    c.sign(HS256, IssuedClaims(u, now), secret)
  }

  /** The key function of `ValidateToken`: the secret for HMAC methods, an error for any other. */
  function KeyFor(alg: Alg, secret: string): (r: Result<string>)
    ensures r.Ok? <==> IsHmac(alg)
    ensures r.Ok? ==> r.value == secret
  {
    if IsHmac(alg) then Ok(secret) else Err(ErrInvalidToken)
  }

  /**
   * `ValidateToken`: a token passes only if it is HMAC-signed, its signature
   * checks under the server secret and it has not expired. A token of any
   * other method is turned away before a key is handed out.
   */
  function ValidateToken(c: Codec, tokenString: string, secret: string, now: int): (r: Result<Token>)
    ensures r.Ok? ==> r.value.valid && IsHmac(r.value.alg)
    ensures r.Ok? ==>
      && c.decode(tokenString).Some?
      && var d := c.decode(tokenString).value;
      && r.value.claims == d.claims
      && c.verify(d.alg, d.signingInput, d.signature, secret)
      && (d.claims.exp.None? || now < d.claims.exp.value)
    ensures c.decode(tokenString).Some? && !IsHmac(c.decode(tokenString).value.alg) ==> r == Err(ErrUnverifiable)
  {
    Parse(c, tokenString, (a: Alg) => KeyFor(a, secret), now)
  }

  /** A token this service issued validates, with the user's claims, until it expires. */
  lemma TokenRoundTrip(c: Codec, u: User, secret: string, issuedAt: int, now: int)
    requires Coherent(c)
    requires GenerateToken(c, u, secret, issuedAt).Ok?
    requires now < issuedAt + TokenLifetime
    ensures ValidateToken(c, GenerateToken(c, u, secret, issuedAt).value, secret, now)
         == Ok(Token(HS256, Claims(u.id, u.email, u.role, Some(issuedAt + 259200)), true))
  {
    var d := c.decode(GenerateToken(c, u, secret, issuedAt).value);
    assert d.Some? && d.value.alg == HS256 && d.value.claims == IssuedClaims(u, issuedAt);
  }

  /** From `exp` on, the same token is rejected as expired. */
  lemma TokenExpires(c: Codec, u: User, secret: string, issuedAt: int, now: int)
    requires Coherent(c)
    requires GenerateToken(c, u, secret, issuedAt).Ok?
    requires issuedAt + TokenLifetime <= now
    ensures ValidateToken(c, GenerateToken(c, u, secret, issuedAt).value, secret, now) == Err(ErrExpired)
  {
    var d := c.decode(GenerateToken(c, u, secret, issuedAt).value);
    assert d.Some? && d.value.alg == HS256 && d.value.claims == IssuedClaims(u, issuedAt);
  }

  /**
   * `Register`: an existing email fails without writing; otherwise the password
   * is hashed, the user is stored with role "user", and a token is issued.
   * A failure to sign the token still leaves the new row in the store.
   */
  function Register(st: Store, c: Codec, b: Bcrypt, dto: RegisterDto, salt: nat, now: int, secret: string): (r: Registration)
    requires Wf(st)
    ensures Wf(r.store)
    ensures r.reply.err.Some? ==> r.reply.user.None? && r.reply.token == ""
    ensures FindByEmail(st, dto.email).Ok? ==> r == Registration(st, AuthResult(None, "", Some(ErrUserExists)))
    ensures r.store != st ==>
      && b.generate(dto.password, salt).Ok?
      && exists u :: Inserted(st, r.store, u) && RegisteredFrom(u, dto, b.generate(dto.password, salt).value, now)
    ensures r.reply.err.None? ==>
      && r.reply.user.Some?
      && Inserted(st, r.store, r.reply.user.value)
      && RegisteredFrom(r.reply.user.value, dto, b.generate(dto.password, salt).value, now)
      && c.sign(HS256, IssuedClaims(r.reply.user.value, now), secret) == Ok(r.reply.token)
    ensures st.fault.None? && !EmailTaken(st.users, dto.email) && b.generate(dto.password, salt).Ok? ==>
      exists u :: && Inserted(st, r.store, u)
                  && RegisteredFrom(u, dto, b.generate(dto.password, salt).value, now)
                  && (r.reply.err.None? <==> GenerateToken(c, u, secret, now).Ok?)
  {
    if FindByEmail(st, dto.email).Ok? then
      Registration(st, AuthResult(None, "", Some(ErrUserExists)))
    else
      var hashed := HashPassword(User(0, dto.name, dto.email, dto.password, UserRole, 0, 0), b, salt);
      if hashed.err.Some? then Registration(st, AuthResult(None, "", hashed.err))
      else
        var created := Create(st, hashed.user, now);
        if created.result.Err? then Registration(st, AuthResult(None, "", Some(created.result.error)))
        else
          var u := created.result.value;
          assert Inserted(st, created.store, u) && RegisteredFrom(u, dto, b.generate(dto.password, salt).value, now);
          match GenerateToken(c, u, secret, now)
          case Err(e) => Registration(created.store, AuthResult(None, "", Some(e)))
          case Ok(token) => Registration(created.store, AuthResult(Some(u), token, None))
  }

  /**
   * `Login`: an unknown email and a wrong password give the same error;
   * a token is issued only after the password checks.
   */
  function Login(st: Store, c: Codec, b: Bcrypt, dto: LoginDto, now: int, secret: string): (r: AuthResult)
    requires Wf(st)
    ensures r.err.Some? ==> r.user.None? && r.token == ""
    ensures FindByEmail(st, dto.email).Err? ==> r == AuthResult(None, "", Some(ErrInvalidCredentials))
    ensures FindByEmail(st, dto.email).Ok? && !CheckPassword(FindByEmail(st, dto.email).value, b, dto.password)
            ==> r == AuthResult(None, "", Some(ErrInvalidCredentials))
    ensures r.err.None? ==>
      && FindByEmail(st, dto.email).Ok?
      && CheckPassword(FindByEmail(st, dto.email).value, b, dto.password)
      && r.user == Some(FindByEmail(st, dto.email).value)
      && c.sign(HS256, IssuedClaims(r.user.value, now), secret) == Ok(r.token)
    ensures FindByEmail(st, dto.email).Ok? && CheckPassword(FindByEmail(st, dto.email).value, b, dto.password) ==>
              (r.err.None? <==> GenerateToken(c, FindByEmail(st, dto.email).value, secret, now).Ok?)
  {
    match FindByEmail(st, dto.email)
    case Err(_) => AuthResult(None, "", Some(ErrInvalidCredentials))
    case Ok(u) =>
      if !CheckPassword(u, b, dto.password) then AuthResult(None, "", Some(ErrInvalidCredentials))
      else
        match GenerateToken(c, u, secret, now)
        case Err(e) => AuthResult(None, "", Some(e))
        case Ok(token) => AuthResult(Some(u), token, None)
  }

  /** In a well-formed store the row `Register` inserted is the one found by its email. */
  lemma FindInserted(st: Store, st': Store, u: User)
    requires Wf(st') && st'.fault.None?
    requires Inserted(st, st', u)
    ensures FindByEmail(st', u.email) == Ok(u)
  {
    assert st'.users[u.id].email == u.email;
  }

  /** Logging in right after registering, with the same password, returns the registered user. */
  lemma RegisterThenLogin(st: Store, c: Codec, b: Bcrypt, dto: RegisterDto, salt: nat, now: int, later: int, secret: string)
    requires Wf(st) && Sound(b)
    requires Register(st, c, b, dto, salt, now, secret).reply.err.None?
    requires GenerateToken(c, Register(st, c, b, dto, salt, now, secret).reply.user.value, secret, later).Ok?
    ensures Login(Register(st, c, b, dto, salt, now, secret).store, c, b, LoginDto(dto.email, dto.password), later, secret).user
         == Register(st, c, b, dto, salt, now, secret).reply.user
  {
    var reg := Register(st, c, b, dto, salt, now, secret);
    var u := reg.reply.user.value;
    assert st.fault.None?;
    FindInserted(st, reg.store, u);
  }

  /**
   * After registering, a password that differs from the registered one within
   * bcrypt's first 72 bytes is refused with the generic error.
   */
  lemma RegisterThenWrongPassword(st: Store, c: Codec, b: Bcrypt, dto: RegisterDto, salt: nat, now: int, later: int,
                                  secret: string, guess: string)
    requires Wf(st) && CollisionFree(b)
    requires Register(st, c, b, dto, salt, now, secret).reply.err.None?
    requires Significant(guess) != Significant(dto.password)
    ensures Login(Register(st, c, b, dto, salt, now, secret).store, c, b, LoginDto(dto.email, guess), later, secret)
         == AuthResult(None, "", Some(ErrInvalidCredentials))
  {
    var reg := Register(st, c, b, dto, salt, now, secret);
    var u := reg.reply.user.value;
    assert st.fault.None?;
    FindInserted(st, reg.store, u);
  }

  /**
   * After registering a password of 72 bytes or more, any guess that agrees
   * with it in the first 72 bytes logs in as the registered user.
   */
  lemma RegisterThenLongerPassword(st: Store, c: Codec, b: Bcrypt, dto: RegisterDto, salt: nat, now: int, later: int,
                                   secret: string, guess: string)
    requires Wf(st) && Sound(b) && Truncates(b)
    requires Register(st, c, b, dto, salt, now, secret).reply.err.None?
    requires GenerateToken(c, Register(st, c, b, dto, salt, now, secret).reply.user.value, secret, later).Ok?
    requires Significant(guess) == Significant(dto.password)
    ensures Login(Register(st, c, b, dto, salt, now, secret).store, c, b, LoginDto(dto.email, guess), later, secret).user
         == Register(st, c, b, dto, salt, now, secret).reply.user
  {
    var reg := Register(st, c, b, dto, salt, now, secret);
    var u := reg.reply.user.value;
    assert st.fault.None?;
    FindInserted(st, reg.store, u);
    assert CheckPassword(u, b, dto.password);
  }
}

=== FILE: config.dfy ===
/**
 * Process configuration: `getEnv` with its empty-means-unset rule, and
 * `LoadEnv`, which first merges an optional `.env` file into the environment
 * (godotenv never overrides a variable that is already set, even to the empty
 * string) and then reads the three settings with their defaults.
 */
module Config {
  import opened Results

  /** A process environment: variable name to value. */
  type Env = map<string, string>

  datatype AppConfig = AppConfig(dbUrl: string, port: string, jwtSecret: string)

  /** What `LoadEnv` leaves behind: the global configuration and its log lines. */
  datatype Loaded = Loaded(config: AppConfig, log: seq<string>)

  const DefaultPort := "8081"
  const MissingDotenvLog := "No .env file found, using environment variables"

  /** `os.Getenv`: an unset variable reads as the empty string. */
  function Getenv(env: Env, key: string): string {
    if key in env then env[key] else ""
  }

  /** `getEnv(key, default)`: the variable's value unless it is unset or empty. */
  function GetEnv(env: Env, key: string, defaultValue: string): (r: string)
    ensures key in env && env[key] != "" ==> r == env[key]
    ensures key !in env || env[key] == "" ==> r == defaultValue
    ensures r == "" ==> defaultValue == ""
  {
    var value := Getenv(env, key);
    if value == "" then defaultValue else value
  }

  /**
   * `godotenv.Load()` followed by the three `getEnv` calls. `dotenv` is the
   * parsed `.env` file, or an error when it is missing or unreadable; in that
   * case the failure is logged and only the process environment is used.
   */
  function LoadEnv(process: Env, dotenv: Result<Env>): (r: Loaded)
    ensures r.config.port != ""
    ensures dotenv.Err? ==> r.log == [MissingDotenvLog]
    ensures dotenv.Ok? ==> r.log == []
    ensures dotenv.Err? ==> r.config == AppConfig(GetEnv(process, "DATABASE_URL", ""),
                                                  GetEnv(process, "PORT", DefaultPort),
                                                  GetEnv(process, "JWT_SECRET", ""))
  {
    var env := if dotenv.Ok? then dotenv.value + process else process;
    var log := if dotenv.Err? then [MissingDotenvLog] else [];
    Loaded(AppConfig(GetEnv(env, "DATABASE_URL", ""),
                     GetEnv(env, "PORT", DefaultPort),
                     GetEnv(env, "JWT_SECRET", "")), log)
  }

  /** The three variables `LoadEnv` reads. */
  const SettingKeys: set<string> := {"DATABASE_URL", "PORT", "JWT_SECRET"}

  /** The setting `LoadEnv` reads from variable `key`. */
  function Setting(cfg: AppConfig, key: string): string
    requires key in SettingKeys
  {
    if key == "DATABASE_URL" then cfg.dbUrl else if key == "PORT" then cfg.port else cfg.jwtSecret
  }

  /** The default `LoadEnv` passes to `getEnv` for variable `key`. */
  function DefaultFor(key: string): string
    requires key in SettingKeys
  {
    if key == "PORT" then DefaultPort else ""
  }

  /** A variable set in the process environment wins over the `.env` file. */
  lemma ProcessEnvWins(process: Env, file: Env, key: string)
    requires key in SettingKeys
    requires key in process && process[key] != ""
    ensures Setting(LoadEnv(process, Ok(file)).config, key) == process[key]
  {
  }

  /** The `.env` file supplies what the process environment lacks; an empty value there gives the default. */
  lemma DotenvFillsGaps(process: Env, file: Env, key: string)
    requires key in SettingKeys
    requires key !in process
    requires key in file
    ensures Setting(LoadEnv(process, Ok(file)).config, key) == if file[key] != "" then file[key] else DefaultFor(key)
  {
  }

  /**
   * A variable set to the empty string in the process blocks the `.env` value
   * (godotenv does not override it) and then reads as unset, so the default wins.
   */
  lemma EmptyProcessVariableMasksDotenv(process: Env, file: Env, key: string)
    requires key in SettingKeys
    requires key in process && process[key] == ""
    ensures Setting(LoadEnv(process, Ok(file)).config, key) == DefaultFor(key)
  {
  }

  /**
   * A setting named neither in the process nor in the `.env` file takes its
   * default, whether the file is there or not.
   */
  lemma DefaultWhenUnset(process: Env, dotenv: Result<Env>, key: string)
    requires key in SettingKeys
    requires key !in process
    requires dotenv.Ok? ==> key !in dotenv.value
    ensures Setting(LoadEnv(process, dotenv).config, key) == DefaultFor(key)
  {
  }

  /** With no secret configured anywhere the signing secret is the empty string. */
  lemma EmptySecretByDefault(process: Env, dotenv: Result<Env>)
    requires "JWT_SECRET" !in process
    requires dotenv.Ok? ==> "JWT_SECRET" !in dotenv.value
    ensures LoadEnv(process, dotenv).config.jwtSecret == ""
  {
  }
}

=== FILE: http.dfy ===
/**
 * The slice of Fiber the handlers touch: the per-request locals bag, the JSON
 * envelope of a response, and what a handler does next.
 */
module Http {
  import opened Models

  /** A value stored in `c.Locals`; Go keeps it untyped and casts on reading. */
  datatype Value = UintValue(n: nat) | StringValue(s: string) | UserValue(user: User)

  type Locals = map<string, Value>

  datatype Data = NoData | UserData(user: JsonObject) | UserList(users: seq<JsonObject>)
                | AuthData(user: JsonObject, token: string)

  /** `{success: false, error}` or `{success: true, message, data}`. */
  datatype Body = Failure(error: string) | Success(message: string, data: Data)

  datatype Response = Response(status: nat, body: Body)

  /**
   * What a handler does: answer the request, pass it on with `c.Next()` (the
   * next handler then sees `locals`), or panic on a failed type assertion.
   */
  datatype Step = Respond(response: Response) | Next(locals: Locals) | Panic(reason: string)

  const StatusOK := 200
  const StatusCreated := 201
  const StatusBadRequest := 400
  const StatusUnauthorized := 401
  const StatusForbidden := 403
  const StatusNotFound := 404
  const StatusInternalServerError := 500

  /** The panic of a failed `x.(T)` type assertion. */
  const InterfaceConversion := "interface conversion"

  function ErrorResponse(status: nat, message: string): Response {
    Response(status, Failure(message))
  }

  function SuccessResponse(status: nat, message: string, data: Data): Response {
    Response(status, Success(message, data))
  }
}

=== FILE: jwt.dfy ===
/**
 * The part of golang-jwt v5 the core depends on, with the compact
 * serialisation of RFC 7519 and the HMAC computation of section 3.2 of
 * RFC 7518 left abstract. `Codec` bundles signing, decoding and signature
 * checking; `Coherent` is what a correct library guarantees about them.
 */
module Jwt {
  import opened Results

  /** The registered signing methods; `NoneAlg` is the unsigned `"none"`. */
  datatype Alg = HS256 | HS384 | HS512 | RS256 | RS384 | RS512 | ES256 | ES384 | ES512
               | PS256 | PS384 | PS512 | EdDSA | NoneAlg

  /** The methods implemented by `*jwt.SigningMethodHMAC`. */
  predicate IsHmac(a: Alg) {
    a.HS256? || a.HS384? || a.HS512?
  }

  /**
   * The claim set carried by the tokens of this system. `exp` is optional
   * because a token may come from elsewhere; the library accepts a token
   * without one.
   */
  datatype Claims = Claims(userId: nat, email: string, role: string, exp: Option<int>)

  /** A token string split into header algorithm, claims, signing input and signature. */
  datatype Decoded = Decoded(alg: Alg, claims: Claims, signingInput: string, signature: string)

  /**
   * `sign(alg, claims, key)` is `NewWithClaims(alg, claims).SignedString(key)`;
   * `decode` splits and decodes a compact token (None when it is malformed or
   * names an unknown algorithm); `verify(alg, input, signature, key)` is the
   * method's signature check.
   */
  datatype Codec = Codec(
    sign: (Alg, Claims, string) -> Result<string>,
    decode: string -> Option<Decoded>,
    verify: (Alg, string, string, string) -> bool)

  /** A signed token decodes to what was signed, and its signature checks under the same key. */
  ghost predicate Coherent(c: Codec) {
    forall a: Alg, cl: Claims, key: string :: c.sign(a, cl, key).Ok? ==>
      var d := c.decode(c.sign(a, cl, key).value);
      d.Some? && d.value.alg == a && d.value.claims == cl
      && c.verify(a, d.value.signingInput, d.value.signature, key)
  }

  /** `*jwt.Token` as returned by `Parse`. */
  datatype Token = Token(alg: Alg, claims: Claims, valid: bool)

  const ErrMalformed := "token is malformed"
  const ErrUnverifiable := "token is unverifiable"
  const ErrSignatureInvalid := "token signature is invalid"
  const ErrExpired := "token has invalid claims: token is expired"

  /** The key function's answer turned a token away. */
  predicate KeyRejected(c: Codec, tokenString: string, keyFunc: Alg -> Result<string>) {
    c.decode(tokenString).Some? && keyFunc(c.decode(tokenString).value.alg).Err?
  }

  /**
   * `jwt.Parse(tokenString, keyFunc)` at time `now`: decode, ask the key
   * function for a key (its error makes the token unverifiable and no
   * signature is checked), check the signature, then check `exp`, which
   * holds while `now` is strictly before it.
   */
  function Parse(c: Codec, tokenString: string, keyFunc: Alg -> Result<string>, now: int): (r: Result<Token>)
    ensures r.Ok? ==> r.value.valid
    ensures r.Ok? <==>
      && c.decode(tokenString).Some?
      && var d := c.decode(tokenString).value;
      && keyFunc(d.alg).Ok?
      && c.verify(d.alg, d.signingInput, d.signature, keyFunc(d.alg).value)
      && (d.claims.exp.None? || now < d.claims.exp.value)
    ensures r.Ok? ==> r.value.alg == c.decode(tokenString).value.alg
    ensures r.Ok? ==> r.value.claims == c.decode(tokenString).value.claims
    ensures KeyRejected(c, tokenString, keyFunc) ==> r == Err(ErrUnverifiable)
  {
    match c.decode(tokenString)
    case None => Err(ErrMalformed)
    case Some(d) =>
      match keyFunc(d.alg)
      case Err(_) => Err(ErrUnverifiable)
      case Ok(key) =>
        if !c.verify(d.alg, d.signingInput, d.signature, key) then Err(ErrSignatureInvalid)
        else if d.claims.exp.Some? && now >= d.claims.exp.value then Err(ErrExpired)
        else Ok(Token(d.alg, d.claims, true))
  }
}

=== FILE: middleware.dfy ===
/**
 * The authentication middleware. `Protected` runs header, token, lookup and
 * attach in that order and stops at the first failure; `AdminOnly` gates on
 * the role `Protected` attached.
 */
module Middleware {
  import opened Results
  import opened Text
  import opened Models
  import opened Repository
  import opened Jwt
  import opened Http
  import AuthService

  const MsgMissingHeader := "Missing authorization header"
  const MsgInvalidToken := "Invalid or expired token"
  const MsgUserNotFound := "User not found"
  const MsgAdminRequired := "Admin access required"

  /** The bearer scheme's prefix (section 2.1 of RFC 6750). */
  const BearerPrefix := "Bearer "

  /** The token is the header with the first `"Bearer "` removed, wherever it occurs. */
  function ExtractToken(header: string): (t: string)
    ensures (forall j :: !OccursAt(header, BearerPrefix, j)) ==> t == header
    ensures (exists j :: OccursAt(header, BearerPrefix, j)) ==> |t| == |header| - |BearerPrefix|
  {
    ReplaceFirst(header, BearerPrefix, "")
  }

  /** `"Bearer " + t` yields `t`, whatever `t` contains. */
  lemma ExtractFromBearer(t: string)
    ensures ExtractToken(BearerPrefix + t) == t
  {
    assert (BearerPrefix + t)[..|BearerPrefix|] == BearerPrefix;
    assert OccursAt(BearerPrefix + t, BearerPrefix, 0);
  }

  /** A header without `"Bearer "` is passed to validation as it is. */
  lemma ExtractWithoutBearer(header: string)
    requires forall j :: !OccursAt(header, BearerPrefix, j)
    ensures ExtractToken(header) == header
  {
  }

  /** `"Bearer "` is removed even when it is not at the front. */
  lemma ExtractRemovesInnerBearer(header: string, i: nat)
    requires OccursAt(header, BearerPrefix, i)
    requires forall j :: 0 <= j < i ==> !OccursAt(header, BearerPrefix, j)
    ensures ExtractToken(header) == header[..i] + header[i + |BearerPrefix|..]
  {
    ReplaceFirstAt(header, BearerPrefix, "", i);
  }

  /** The locals hold the loaded user, its id and its role. */
  predicate Attached(locals: Locals, u: User) {
    && "user" in locals && locals["user"] == UserValue(u)
    && "user_id" in locals && locals["user_id"] == UintValue(u.id)
    && "role" in locals && locals["role"] == StringValue(u.role)
  }

  /** The token in the header checks out. */
  predicate TokenAccepted(header: string, c: Codec, secret: string, now: int) {
    AuthService.ValidateToken(c, ExtractToken(header), secret, now).Ok?
  }

  /** The id the accepted token names. */
  function TokenUserId(header: string, c: Codec, secret: string, now: int): nat
    requires TokenAccepted(header, c, secret, now)
  {
    AuthService.ValidateToken(c, ExtractToken(header), secret, now).value.claims.userId
  }

  /**
   * `Protected`. Every failure is a 401 and ends the chain; the first failing
   * check decides the message, and the verification error's cause is not
   * shown. On success the row is re-read from the store and its id and role,
   * not the token's claims, are attached.
   */
  function Protected(header: string, locals: Locals, c: Codec, secret: string, now: int, st: Store): (r: Step)
    ensures !r.Panic?
    ensures r.Respond? ==> r.response.status == StatusUnauthorized
    ensures r == Respond(ErrorResponse(StatusUnauthorized, MsgMissingHeader)) <==> header == ""
    ensures r == Respond(ErrorResponse(StatusUnauthorized, MsgInvalidToken)) <==>
              header != "" && !TokenAccepted(header, c, secret, now)
    ensures r == Respond(ErrorResponse(StatusUnauthorized, MsgUserNotFound)) <==>
              && header != "" && TokenAccepted(header, c, secret, now)
              && FindByID(st, TokenUserId(header, c, secret, now)).Err?
    ensures r.Next? <==>
              && header != "" && TokenAccepted(header, c, secret, now)
              && FindByID(st, TokenUserId(header, c, secret, now)).Ok?
    ensures r.Next? ==> Attached(r.locals, st.users[TokenUserId(header, c, secret, now)])
    ensures r.Next? ==> forall k :: k in locals && k != "user" && k != "user_id" && k != "role" ==>
                          k in r.locals && r.locals[k] == locals[k]
  {
    if header == "" then Respond(ErrorResponse(StatusUnauthorized, MsgMissingHeader))
    else
      var token := AuthService.ValidateToken(c, ExtractToken(header), secret, now);
      if token.Err? || !token.value.valid then Respond(ErrorResponse(StatusUnauthorized, MsgInvalidToken))
      else
        match FindByID(st, token.value.claims.userId)
        case Err(_) => Respond(ErrorResponse(StatusUnauthorized, MsgUserNotFound))
        case Ok(u) => Next(locals["user" := UserValue(u)]["user_id" := UintValue(u.id)]["role" := StringValue(u.role)])
  }

  /**
   * `AdminOnly`. Reading the role is a type assertion to string, which panics
   * when no string role is present; a role other than "admin" is a 403.
   */
  function AdminOnly(locals: Locals): (r: Step)
    ensures r.Panic? <==> "role" !in locals || !locals["role"].StringValue?
    ensures r.Next? <==> "role" in locals && locals["role"] == StringValue(AdminRole)
    ensures r.Next? ==> r.locals == locals
    ensures r.Respond? ==> r.response == ErrorResponse(StatusForbidden, MsgAdminRequired)
  {
    if "role" !in locals || !locals["role"].StringValue? then Panic(InterfaceConversion)
    else if locals["role"].s != AdminRole then Respond(ErrorResponse(StatusForbidden, MsgAdminRequired))
    else Next(locals)
  }

  /**
   * Behind `Protected`, `AdminOnly` never panics, and it admits exactly the
   * users whose stored role is "admin".
   */
  lemma AdminOnlyAfterProtected(header: string, locals: Locals, c: Codec, secret: string, now: int, st: Store)
    requires Protected(header, locals, c, secret, now, st).Next?
    ensures var after := Protected(header, locals, c, secret, now, st).locals;
            var u := st.users[TokenUserId(header, c, secret, now)];
            && !AdminOnly(after).Panic?
            && (AdminOnly(after).Next? <==> u.role == AdminRole)
  {
  }

  /**
   * The role claim in the token carries no weight: a token claiming "admin"
   * for a user whose stored role is "user" is refused by `AdminOnly`.
   */
  lemma ClaimedRoleIgnored(header: string, locals: Locals, c: Codec, secret: string, now: int, st: Store)
    requires Protected(header, locals, c, secret, now, st).Next?
    requires AuthService.ValidateToken(c, ExtractToken(header), secret, now).value.claims.role == AdminRole
    requires st.users[TokenUserId(header, c, secret, now)].role == UserRole
    ensures AdminOnly(Protected(header, locals, c, secret, now, st).locals)
         == Respond(ErrorResponse(StatusForbidden, MsgAdminRequired))
  {
  }

  /**
   * A token issued to a user who has since been deleted no longer opens
   * anything, although it still verifies.
   */
  lemma DeletedUserRejected(c: Codec, u: User, secret: string, issuedAt: int, now: int, locals: Locals, st: Store)
    requires Coherent(c)
    requires AuthService.GenerateToken(c, u, secret, issuedAt).Ok?
    requires now < issuedAt + AuthService.TokenLifetime
    requires u.id !in st.users
    ensures var header := BearerPrefix + AuthService.GenerateToken(c, u, secret, issuedAt).value;
            Protected(header, locals, c, secret, now, st) == Respond(ErrorResponse(StatusUnauthorized, MsgUserNotFound))
  {
    var token := AuthService.GenerateToken(c, u, secret, issuedAt).value;
    ExtractFromBearer(token);
    AuthService.TokenRoundTrip(c, u, secret, issuedAt, now);
  }

  /** A token issued to a user who is still stored attaches that user's current row. */
  lemma IssuedTokenAuthenticates(c: Codec, u: User, secret: string, issuedAt: int, now: int, locals: Locals, st: Store)
    requires Coherent(c)
    requires AuthService.GenerateToken(c, u, secret, issuedAt).Ok?
    requires now < issuedAt + AuthService.TokenLifetime
    requires st.fault.None? && u.id in st.users
    ensures var header := BearerPrefix + AuthService.GenerateToken(c, u, secret, issuedAt).value;
            var r := Protected(header, locals, c, secret, now, st);
            r.Next? && Attached(r.locals, st.users[u.id])
  {
    var token := AuthService.GenerateToken(c, u, secret, issuedAt).value;
    ExtractFromBearer(token);
    AuthService.TokenRoundTrip(c, u, secret, issuedAt, now);
  }
}

=== FILE: models.dfy ===
/**
 * The `User` record, its password hashing and checking, its JSON view and the
 * request bodies. bcrypt is abstract: a pair of functions whose expected
 * behaviour is written down as predicates (`Sound`, `Truncates`, `CollisionFree`) that only
 * the round-trip lemmas assume.
 */
module Models {
  import opened Results

  /** Timestamps are whole seconds since the epoch. */
  datatype User = User(
    id: nat,
    name: string,
    email: string,
    password: string,   // the bcrypt hash once stored
    role: string,
    createdAt: int,
    updatedAt: int)

  const UserRole := "user"
  const AdminRole := "admin"

  /** `TableName`: the table the store keeps users in. */
  const TableName := "users"

  /**
   * bcrypt. `generate(password, salt)` is `GenerateFromPassword` with the
   * random salt made explicit; it may fail. `compare(hash, password)` is
   * `CompareHashAndPassword(hash, password) == nil`.
   */
  datatype Bcrypt = Bcrypt(generate: (string, nat) -> Result<string>, compare: (string, string) -> bool)

  /** bcrypt reads at most this many bytes of a password. */
  const MaxPasswordBytes := 72

  /** The part of a password bcrypt looks at: its first 72 bytes. */
  function Significant(p: string): (k: string)
    ensures |k| <= MaxPasswordBytes && k <= p
    ensures |p| <= MaxPasswordBytes ==> k == p
  {
    if |p| <= MaxPasswordBytes then p else p[..MaxPasswordBytes]
  }

  /** A hash accepts the password it was made from. */
  ghost predicate Sound(b: Bcrypt) {
    forall p: string, salt: nat :: b.generate(p, salt).Ok? ==> b.compare(b.generate(p, salt).value, p)
  }

  /** Comparison ignores everything after the first 72 bytes of the password. */
  ghost predicate Truncates(b: Bcrypt) {
    forall h: string, p: string, q: string :: Significant(p) == Significant(q) ==> b.compare(h, p) == b.compare(h, q)
  }

  /** A hash accepts no password that differs from its own within the first 72 bytes. */
  ghost predicate CollisionFree(b: Bcrypt) {
    forall p: string, q: string, salt: nat ::
      b.generate(p, salt).Ok? && Significant(q) != Significant(p) ==> !b.compare(b.generate(p, salt).value, q)
  }

  /** The three assumptions can hold together, so lemmas that assume them are not vacuous. */
  lemma BcryptAssumptionsConsistent()
    ensures exists b: Bcrypt :: Sound(b) && Truncates(b) && CollisionFree(b)
  {
    var b := Bcrypt((p: string, salt: nat) => Ok("$2a$" + Significant(p)),
                    (h: string, p: string) => h == "$2a$" + Significant(p));
    assert Sound(b);
    assert Truncates(b);
    forall p: string, q: string, salt: nat | Significant(q) != Significant(p)
      ensures !b.compare(b.generate(p, salt).value, q)
    {
      assert ("$2a$" + Significant(p))[4..] == Significant(p) && ("$2a$" + Significant(q))[4..] == Significant(q);
    }
    assert CollisionFree(b);
  }

  /** `Hashpassword`: the user after the call, and the error it returned. */
  datatype Hashed = Hashed(user: User, err: Option<string>)

  /**
   * `Hashpassword`: on success `Password` becomes the hash of its previous
   * value and nothing else changes; on failure the user is left as it was.
   */
  function HashPassword(u: User, b: Bcrypt, salt: nat): (r: Hashed)
    ensures r.err.None? <==> b.generate(u.password, salt).Ok?
    ensures r.err.None? ==> r.user == u.(password := b.generate(u.password, salt).value)
    ensures r.err.Some? ==> r.user == u && r.err.value == b.generate(u.password, salt).error
  {
    match b.generate(u.password, salt)
    case Ok(hash) => Hashed(u.(password := hash), None)
    case Err(e) => Hashed(u, Some(e))
  }

  /**
   * `CheckPassword`: the stored hash accepts `password`. When the stored
   * password is a hash of some `p`, bcrypt accepts exactly the passwords that
   * agree with `p` in their first 72 bytes.
   */
  function CheckPassword(u: User, b: Bcrypt, password: string): (ok: bool)
    ensures Sound(b) && Truncates(b) && CollisionFree(b) ==>
      forall p: string, salt: nat :: b.generate(p, salt).Ok? && u.password == b.generate(p, salt).value ==>
        (ok <==> Significant(password) == Significant(p))
  {
    b.compare(u.password, password)
  }

  /**
   * After a successful hash, the original password checks, a password that
   * differs from it in the first 72 bytes does not, and one that agrees there
   * does, however it goes on.
   */
  lemma HashThenCheck(u: User, b: Bcrypt, salt: nat, other: string)
    requires Sound(b) && CollisionFree(b)
    requires HashPassword(u, b, salt).err.None?
    ensures CheckPassword(HashPassword(u, b, salt).user, b, u.password)
    ensures Significant(other) != Significant(u.password) ==> !CheckPassword(HashPassword(u, b, salt).user, b, other)
    ensures Truncates(b) && Significant(other) == Significant(u.password) ==>
              CheckPassword(HashPassword(u, b, salt).user, b, other)
  {
  }

  /** A 72-byte password's hash also accepts every longer string that starts with it. */
  lemma LongerPasswordAccepted(u: User, b: Bcrypt, salt: nat, suffix: string)
    requires Sound(b) && Truncates(b) && CollisionFree(b)
    requires HashPassword(u, b, salt).err.None?
    requires |u.password| == MaxPasswordBytes
    ensures CheckPassword(HashPassword(u, b, salt).user, b, u.password + suffix)
  {
    assert (u.password + suffix)[..MaxPasswordBytes] == u.password;
    HashThenCheck(u, b, salt, u.password + suffix);
  }

  // ---------------------------------------------------------------------------
  // JSON view
  // ---------------------------------------------------------------------------

  datatype JsonValue = JNumber(n: int) | JString(s: string)

  /** A JSON object as its ordered list of members. */
  type JsonObject = seq<(string, JsonValue)>

  /** The keys of a JSON object. */
  function Keys(o: JsonObject): (ks: seq<string>)
    ensures |ks| == |o|
    ensures forall i :: 0 <= i < |o| ==> ks[i] == o[i].0
  {
    if o == [] then [] else [o[0].0] + Keys(o[1..])
  }

  /**
   * The JSON encoding of a user, following its struct tags: `Password` is
   * tagged `json:"-"` and never appears. The timestamps, which encoding/json
   * writes as RFC 3339 strings, stand here as their whole-second numbers.
   */
  function ToJson(u: User): (o: JsonObject)
    ensures Keys(o) == ["id", "name", "email", "role", "created_at", "updated_at"]
    ensures FromJson(o, u.password) == Some(u)
  {
    var o := [("id", JNumber(u.id)), ("name", JString(u.name)), ("email", JString(u.email)),
              ("role", JString(u.role)), ("created_at", JNumber(u.createdAt)), ("updated_at", JNumber(u.updatedAt))];
    LookupAt(o, "id", 0);
    LookupAt(o, "name", 1);
    LookupAt(o, "email", 2);
    LookupAt(o, "role", 3);
    LookupAt(o, "created_at", 4);
    LookupAt(o, "updated_at", 5);
    o
  }

  /** The value of the first member named `key`. */
  function Lookup(o: JsonObject, key: string): Option<JsonValue> {
    if o == [] then None else if o[0].0 == key then Some(o[0].1) else Lookup(o[1..], key)
  }

  /** The first member named `key` decides the lookup. */
  lemma {:induction false} LookupAt(o: JsonObject, key: string, i: nat)
    requires i < |o| && o[i].0 == key
    requires forall j :: 0 <= j < i ==> o[j].0 != key
    ensures Lookup(o, key) == Some(o[i].1)
  {
    if i > 0 {
      LookupAt(o[1..], key, i - 1);
    }
  }

  /**
   * Reads a user back from its JSON members, taking the password, which the
   * encoding leaves out, separately. A missing member, a value of the wrong
   * kind or a negative id is no user.
   */
  function FromJson(o: JsonObject, password: string): Option<User> {
    match (Lookup(o, "id"), Lookup(o, "name"), Lookup(o, "email"), Lookup(o, "role"),
           Lookup(o, "created_at"), Lookup(o, "updated_at"))
    case (Some(JNumber(id)), Some(JString(name)), Some(JString(email)), Some(JString(role)),
          Some(JNumber(created)), Some(JNumber(updated))) =>
      if id < 0 then None else Some(User(id, name, email, password, role, created, updated))
    case _ => None
  }

  /** Two users serialise alike exactly when they agree on everything but the password. */
  lemma JsonDeterminesUser(u: User, v: User)
    ensures ToJson(u) == ToJson(v) <==> u.(password := "") == v.(password := "")
  {
    if ToJson(u) == ToJson(v) {
      assert FromJson(ToJson(u), "") == Some(u.(password := ""));
      assert FromJson(ToJson(v), "") == Some(v.(password := ""));
    }
  }

  /** The password is not a key, and its value cannot influence the encoding. */
  lemma JsonOmitsPassword(u: User, p: string)
    ensures "password" !in Keys(ToJson(u))
    ensures ToJson(u.(password := p)) == ToJson(u)
  {
  }

  // ---------------------------------------------------------------------------
  // Request bodies (their `validate` tags are not enforced anywhere)
  // ---------------------------------------------------------------------------

  datatype RegisterDto = RegisterDto(name: string, email: string, password: string)
  datatype LoginDto = LoginDto(email: string, password: string)
  datatype UpdateUserDto = UpdateUserDto(name: string, email: string)

  /**
   * The row built from a registration request: name and email from the
   * request, the password replaced by its hash, role "user", both timestamps
   * set at insertion.
   */
  predicate RegisteredFrom(u: User, dto: RegisterDto, hash: string, now: int) {
    && u.name == dto.name && u.email == dto.email && u.password == hash
    && u.role == UserRole && u.createdAt == now && u.updatedAt == now
  }
}

=== FILE: repository.dfy ===
/**
 * The user store behind the `repositories` package, which is not part of this
 * model; its behaviour is that of a GORM table `users` with an auto-increment
 * primary key, a unique `email` column and a `'user'` default for `role`.
 * `fault`, when present, is a database failure: every call then fails with it.
 */
module Repository {
  import opened Results
  import opened Models

  datatype Store = Store(users: map<nat, User>, nextId: nat, fault: Option<string>)

  /** The store after a write, and what the write returned. */
  datatype Write<T> = Write(store: Store, result: Result<T>)

  const ErrNotFound := "record not found"
  const ErrDuplicateEmail := "duplicate key value violates unique constraint"

  /** The unique constraint on `email`. */
  predicate EmailsUnique(users: map<nat, User>) {
    forall a, b :: a in users && b in users && users[a].email == users[b].email ==> a == b
  }

  /**
   * What the table guarantees: unique emails, every row keyed by its own id,
   * and ids positive and below the next auto-increment value.
   */
  predicate Wf(st: Store) {
    && EmailsUnique(st.users)
    && forall k :: k in st.users ==> st.users[k].id == k && 0 < k < st.nextId
  }

  predicate EmailTaken(users: map<nat, User>, email: string) {
    exists k :: k in users && users[k].email == email
  }

  /** `st'` is `st` with the new row `u` inserted under an id that was free. */
  predicate Inserted(st: Store, st': Store, u: User) {
    u.id !in st.users && st'.users == st.users[u.id := u]
  }

  /** `FindByID` (GORM `First` by primary key). */
  function FindByID(st: Store, id: nat): (r: Result<User>)
    ensures r.Ok? <==> st.fault.None? && id in st.users
    ensures r.Ok? ==> r.value == st.users[id]
    ensures r.Err? && st.fault.Some? ==> r.error == st.fault.value
    ensures r.Err? && st.fault.None? ==> r.error == ErrNotFound
  {
    if st.fault.Some? then Err(st.fault.value)
    else if id in st.users then Ok(st.users[id])
    else Err(ErrNotFound)
  }

  /** `FindByEmail`: the one row with that email, if any. */
  function FindByEmail(st: Store, email: string): (r: Result<User>)
    requires Wf(st)
    ensures r.Ok? <==> st.fault.None? && EmailTaken(st.users, email)
    ensures r.Ok? ==> r.value.email == email && r.value.id in st.users && st.users[r.value.id] == r.value
  {
    if st.fault.Some? then Err(st.fault.value)
    else if EmailTaken(st.users, email) then
      var k :| k in st.users && st.users[k].email == email;
      Ok(st.users[k])
    else Err(ErrNotFound)
  }

  /** `order` lists every id of `users` exactly once: the order the database returns rows in. */
  predicate Enumerates(order: seq<nat>, users: map<nat, User>) {
    && (forall i :: 0 <= i < |order| ==> order[i] in users)
    && (forall k :: k in users ==> k in order)
    && (forall i, j :: 0 <= i < j < |order| ==> order[i] != order[j])
  }

  /** `FindAll`: every row once, in the database's order. */
  function FindAll(st: Store, order: seq<nat>): (r: Result<seq<User>>)
    requires Enumerates(order, st.users)
    ensures r.Ok? <==> st.fault.None?
    ensures r.Ok? ==> |r.value| == |order|
    ensures r.Ok? ==> forall u :: u in r.value <==> u in st.users.Values
  {
    if st.fault.Some? then Err(st.fault.value)
    else
      var rows := seq(|order|, i requires 0 <= i < |order| => st.users[order[i]]);
      assert forall u :: u in st.users.Values ==> u in rows by {
        forall u | u in st.users.Values
          ensures u in rows
        {
          var k :| k in st.users && st.users[k] == u;
          var i :| 0 <= i < |order| && order[i] == k;
          assert rows[i] == u;
        }
      }
      Ok(rows)
  }

  /**
   * `CreateUser` (GORM `Create`): inserts under the next id, fills an empty role
   * with the column default and stamps both timestamps; a duplicate email
   * violates the unique constraint and nothing is written.
   */
  function Create(st: Store, u: User, now: int): (r: Write<User>)
    requires Wf(st)
    ensures Wf(r.store)
    ensures r.result.Ok? <==> st.fault.None? && !EmailTaken(st.users, u.email)
    ensures r.result.Err? ==> r.store == st
    ensures r.result.Ok? ==>
      var v := r.result.value;
      && v.id !in st.users
      && r.store.users == st.users[v.id := v]
      && v.name == u.name && v.email == u.email && v.password == u.password
      && v.role == (if u.role == "" then UserRole else u.role)
      && v.createdAt == now && v.updatedAt == now
  {
    if st.fault.Some? then Write(st, Err(st.fault.value))
    else if EmailTaken(st.users, u.email) then Write(st, Err(ErrDuplicateEmail))
    else
      var id := if st.nextId == 0 then 1 else st.nextId;
      var v := User(id, u.name, u.email, u.password, if u.role == "" then UserRole else u.role, now, now);
      Write(Store(st.users[id := v], id + 1, st.fault), Ok(v))
  }

  /**
   * `Update` (GORM `Save` of a loaded row): writes every field back and
   * refreshes `UpdatedAt`; an email held by another row violates the unique
   * constraint and nothing is written.
   */
  function Update(st: Store, u: User, now: int): (r: Write<User>)
    requires Wf(st) && u.id in st.users
    ensures Wf(r.store)
    ensures r.result.Ok? <==> st.fault.None? && forall k :: k in st.users && k != u.id ==> st.users[k].email != u.email
    ensures r.result.Err? ==> r.store == st
    ensures r.result.Ok? ==> r.result.value == u.(updatedAt := now)
    ensures r.result.Ok? ==> r.store == st.(users := st.users[u.id := r.result.value])
  {
    if st.fault.Some? then Write(st, Err(st.fault.value))
    else if exists k :: k in st.users && k != u.id && st.users[k].email == u.email then Write(st, Err(ErrDuplicateEmail))
    else
      var v := u.(updatedAt := now);
      Write(st.(users := st.users[u.id := v]), Ok(v))
  }

  /** `Delete` by primary key; deleting an absent id deletes nothing and succeeds. */
  function Delete(st: Store, id: nat): (r: Write<()>)
    requires Wf(st)
    ensures Wf(r.store)
    ensures r.result.Ok? <==> st.fault.None?
    ensures r.result.Err? ==> r.store == st
    ensures r.result.Ok? ==> r.store.users.Keys == st.users.Keys - {id}
    ensures r.result.Ok? ==> forall k :: k in r.store.users ==> r.store.users[k] == st.users[k]
  {
    if st.fault.Some? then Write(st, Err(st.fault.value))
    else Write(st.(users := st.users - {id}), Ok(()))
  }
}

=== FILE: results.dfy ===
/** Optional values and error-carrying results, the shape of Go's `(T, error)` returns. */
module Results {

  datatype Option<T> = None | Some(value: T)

  /** `Err` carries the text that Go's `err.Error()` would return. */
  datatype Result<T> = Ok(value: T) | Err(error: string)
}

=== FILE: routes.dfy ===
/**
 * The handler chains the router sets up: registration and login are public;
 * the profile and user routes run behind `Protected`, and deleting a user runs
 * behind `Protected` and then `AdminOnly`. `Serve` runs the handlers the
 * router registers, so the profile route panics behind `Protected`;
 * `ServeCorrected` runs the typed profile handler instead.
 */
module Routes {
  import opened Results
  import opened Text
  import opened Models
  import opened Repository
  import opened Jwt
  import opened Http
  import AuthService
  import Middleware
  import UserController
  import AuthController

  /** A request already matched to its route, with its parsed body where it has one. */
  datatype Route =
    | RegisterRoute(registerBody: Result<RegisterDto>)
    | LoginRoute(loginBody: Result<LoginDto>)
    | ProfileRoute
    | ListUsersRoute
    | GetUserRoute(getId: string)
    | UpdateUserRoute(updateId: string, updateBody: Result<UpdateUserDto>)
    | DeleteUserRoute(deleteId: string)

  datatype Request = Request(authorization: string, route: Route)

  /** The server-wide collaborators: token codec, bcrypt and the signing secret. */
  datatype Server = Server(codec: Codec, bcrypt: Bcrypt, secret: string)

  /** The final step of the chain and the store it leaves. */
  datatype Served = Served(reply: Step, store: Store)

  predicate IsProtected(r: Route) {
    !r.RegisterRoute? && !r.LoginRoute?
  }

  /** The locals carry what `Protected` puts there, with the types it gives them. */
  predicate Authenticated(locals: Locals) {
    && "user_id" in locals && locals["user_id"].UintValue?
    && "role" in locals && locals["role"].StringValue?
  }

  /**
   * The handlers that run once `Protected` has called `Next`, as registered:
   * the profile handler asserts a string `user_id` and so panics on the
   * unsigned id `Protected` attached; every other route is answered.
   */
  function Behind(srv: Server, route: Route, locals: Locals, st: Store, now: int, order: seq<nat>): (r: Served)
    requires IsProtected(route) && Authenticated(locals)
    requires Wf(st) && Enumerates(order, st.users)
    ensures Wf(r.store)
    ensures r.reply.Respond? || (route.ProfileRoute? && r.reply.Panic?)
    ensures route.ProfileRoute? ==> r.reply.Panic? && r.store == st
    ensures route.ListUsersRoute? ==> r == Served(Respond(UserController.GetAllUsers(st, order)), st)
    ensures route.GetUserRoute? ==> r == Served(Respond(UserController.GetUser(route.getId, st)), st)
    ensures route.UpdateUserRoute? ==>
              var h := UserController.UpdateUser(route.updateId, route.updateBody, st, now);
              r == Served(Respond(h.response), h.store)
    ensures route.DeleteUserRoute? && locals["role"] == StringValue(AdminRole) ==>
              var h := UserController.DeleteUser(route.deleteId, st);
              r == Served(Respond(h.response), h.store)
    ensures route.DeleteUserRoute? && locals["role"] != StringValue(AdminRole) ==>
              r == Served(Respond(ErrorResponse(StatusForbidden, Middleware.MsgAdminRequired)), st)
  {
    match route
    case ProfileRoute => Served(AuthController.GetProfile(locals, st), st)
    case ListUsersRoute => Served(Respond(UserController.GetAllUsers(st, order)), st)
    case GetUserRoute(id) => Served(Respond(UserController.GetUser(id, st)), st)
    case UpdateUserRoute(id, body) =>
      var h := UserController.UpdateUser(id, body, st, now);
      Served(Respond(h.response), h.store)
    case DeleteUserRoute(id) =>
      match Middleware.AdminOnly(locals)
      case Respond(resp) => Served(Respond(resp), st)
      case Next(_) =>
        var h := UserController.DeleteUser(id, st);
        Served(Respond(h.response), h.store)
  }

  /**
   * One request through its chain, as registered. No chain ends in a dangling
   * `Next`; the only panic is an authenticated profile request; a protected
   * route without a header is a 401 that touches nothing; only registration,
   * update and deletion write.
   */
  function Serve(srv: Server, req: Request, st: Store, now: int, salt: nat, order: seq<nat>): (r: Served)
    requires Wf(st) && Enumerates(order, st.users)
    ensures Wf(r.store)
    ensures !r.reply.Next?
    ensures r.reply.Panic? <==>
              req.route.ProfileRoute? && Middleware.Protected(req.authorization, map[], srv.codec, srv.secret, now, st).Next?
    ensures IsProtected(req.route) && req.authorization == "" ==>
              r == Served(Respond(ErrorResponse(StatusUnauthorized, Middleware.MsgMissingHeader)), st)
    ensures IsProtected(req.route) && !Middleware.Protected(req.authorization, map[], srv.codec, srv.secret, now, st).Next? ==>
              r == Served(Middleware.Protected(req.authorization, map[], srv.codec, srv.secret, now, st), st)
    ensures r.store != st ==> req.route.RegisterRoute? || req.route.UpdateUserRoute? || req.route.DeleteUserRoute?
  {
    match req.route
    case RegisterRoute(body) =>
      var h := AuthController.Register(body, st, srv.codec, srv.bcrypt, salt, now, srv.secret);
      Served(Respond(h.response), h.store)
    case LoginRoute(body) =>
      Served(Respond(AuthController.Login(body, st, srv.codec, srv.bcrypt, now, srv.secret)), st)
    case _ =>
      match Middleware.Protected(req.authorization, map[], srv.codec, srv.secret, now, st)
      case Respond(resp) => Served(Respond(resp), st)
      case Next(locals) => Behind(srv, req.route, locals, st, now, order)
  }

  /**
   * The chain with the profile handler reading `user_id` as the unsigned id
   * `Protected` stores. It answers every request, and it differs from `Serve`
   * only where `Serve` panics.
   */
  function ServeCorrected(srv: Server, req: Request, st: Store, now: int, salt: nat, order: seq<nat>): (r: Served)
    requires Wf(st) && Enumerates(order, st.users)
    ensures Wf(r.store)
    ensures r.reply.Respond?
    ensures Serve(srv, req, st, now, salt, order).reply.Respond? ==> r == Serve(srv, req, st, now, salt, order)
    ensures r.store != st ==> req.route.RegisterRoute? || req.route.UpdateUserRoute? || req.route.DeleteUserRoute?
  {
    if !req.route.ProfileRoute? then Serve(srv, req, st, now, salt, order)
    else
      match Middleware.Protected(req.authorization, map[], srv.codec, srv.secret, now, st)
      case Respond(resp) => Served(Respond(resp), st)
      case Next(locals) => Served(AuthController.GetProfileTyped(locals, st), st)
  }

  /** As registered, an authenticated profile request panics and writes nothing. */
  lemma ProfileRoutePanics(srv: Server, header: string, st: Store, now: int, salt: nat, order: seq<nat>)
    requires Wf(st) && Enumerates(order, st.users)
    requires Middleware.Protected(header, map[], srv.codec, srv.secret, now, st).Next?
    ensures Serve(srv, Request(header, ProfileRoute), st, now, salt, order) == Served(Panic(InterfaceConversion), st)
  {
    AuthController.ProfileAlwaysPanics(header, map[], srv.codec, srv.secret, now, st);
  }

  /** A user whose stored role is not "admin" cannot delete anyone: 403, nothing removed. */
  lemma NonAdminCannotDelete(srv: Server, header: string, id: string, st: Store, now: int, salt: nat, order: seq<nat>)
    requires Wf(st) && Enumerates(order, st.users)
    requires Middleware.Protected(header, map[], srv.codec, srv.secret, now, st).Next?
    requires st.users[Middleware.TokenUserId(header, srv.codec, srv.secret, now)].role != AdminRole
    ensures Serve(srv, Request(header, DeleteUserRoute(id)), st, now, salt, order)
         == Served(Respond(ErrorResponse(StatusForbidden, Middleware.MsgAdminRequired)), st)
  {
  }

  /** Once `Protected` lets a request through, list, get and update reach their registered handlers. */
  lemma AuthenticatedReachesHandler(srv: Server, header: string, route: Route, st: Store, now: int, salt: nat,
                                    order: seq<nat>)
    requires Wf(st) && Enumerates(order, st.users)
    requires Middleware.Protected(header, map[], srv.codec, srv.secret, now, st).Next?
    requires route.ListUsersRoute? || route.GetUserRoute? || route.UpdateUserRoute?
    ensures var r := Serve(srv, Request(header, route), st, now, salt, order);
            && (route.ListUsersRoute? ==> r == Served(Respond(UserController.GetAllUsers(st, order)), st))
            && (route.GetUserRoute? ==> r == Served(Respond(UserController.GetUser(route.getId, st)), st))
            && (route.UpdateUserRoute? ==>
                  var h := UserController.UpdateUser(route.updateId, route.updateBody, st, now);
                  r == Served(Respond(h.response), h.store))
  {
  }

  /**
   * A user whose stored role is "admin" deletes a stored user addressed by its
   * decimal id: 200, and exactly that row is gone.
   */
  lemma AdminCanDelete(srv: Server, header: string, k: nat, st: Store, now: int, salt: nat, order: seq<nat>)
    requires Wf(st) && Enumerates(order, st.users)
    requires Middleware.Protected(header, map[], srv.codec, srv.secret, now, st).Next?
    requires st.users[Middleware.TokenUserId(header, srv.codec, srv.secret, now)].role == AdminRole
    requires k in st.users && k <= MaxUint32
    ensures var r := Serve(srv, Request(header, DeleteUserRoute(FormatDecimal(k))), st, now, salt, order);
            && r.reply == Respond(SuccessResponse(StatusOK, "User deleted successfully", NoData))
            && r.store.users == st.users - {k}
  {
    ParseFormatRoundTrip(k);
    var locals := Middleware.Protected(header, map[], srv.codec, srv.secret, now, st).locals;
    assert locals["role"] == StringValue(AdminRole);
  }

  /** On the corrected chain, an authenticated request for the profile gets a 200 with the caller's stored row. */
  lemma ProfileRouteServesCaller(srv: Server, header: string, st: Store, now: int, salt: nat, order: seq<nat>)
    requires Wf(st) && Enumerates(order, st.users)
    requires Middleware.Protected(header, map[], srv.codec, srv.secret, now, st).Next?
    ensures ServeCorrected(srv, Request(header, ProfileRoute), st, now, salt, order).reply
         == Respond(SuccessResponse(StatusOK, "User profile retrieved successfully",
                                    UserData(ToJson(st.users[Middleware.TokenUserId(header, srv.codec, srv.secret, now)]))))
  {
    AuthController.ProfileTypedServesCaller(header, map[], srv.codec, srv.secret, now, st);
  }

  /**
   * Registering and then presenting the returned token as a bearer token on
   * the corrected profile route, before it expires, shows the registered user.
   */
  lemma RegisterThenProfile(srv: Server, dto: RegisterDto, st: Store, salt: nat, now: int, later: int,
                            order: seq<nat>, order': seq<nat>)
    requires Wf(st) && Coherent(srv.codec) && Enumerates(order, st.users)
    requires AuthService.Register(st, srv.codec, srv.bcrypt, dto, salt, now, srv.secret).reply.err.None?
    requires later < now + AuthService.TokenLifetime
    requires Enumerates(order', AuthService.Register(st, srv.codec, srv.bcrypt, dto, salt, now, srv.secret).store.users)
    ensures var first := Serve(srv, Request("", RegisterRoute(Ok(dto))), st, now, salt, order);
            && first.reply.response.status == StatusCreated
            && first.reply.response.body.Success? && first.reply.response.body.data.AuthData?
            && var data := first.reply.response.body.data;
               ServeCorrected(srv, Request(Middleware.BearerPrefix + data.token, ProfileRoute), first.store, later, salt, order').reply
               == Respond(SuccessResponse(StatusOK, "User profile retrieved successfully", UserData(data.user)))
  {
    var reg := AuthService.Register(st, srv.codec, srv.bcrypt, dto, salt, now, srv.secret);
    var u := reg.reply.user.value;
    var first := Serve(srv, Request("", RegisterRoute(Ok(dto))), st, now, salt, order);
    assert first == Served(Respond(SuccessResponse(StatusCreated, "Register successfull", AuthData(ToJson(u), reg.reply.token))),
                           reg.store);
    assert st.fault.None? && reg.store.fault.None?;
    assert reg.store.users[u.id] == u;
    var header := Middleware.BearerPrefix + reg.reply.token;
    Middleware.IssuedTokenAuthenticates(srv.codec, u, srv.secret, now, later, map[], reg.store);
    AuthService.TokenRoundTrip(srv.codec, u, srv.secret, now, later);
    Middleware.ExtractFromBearer(reg.reply.token);
    assert Middleware.TokenUserId(header, srv.codec, srv.secret, later) == u.id;
    ProfileRouteServesCaller(srv, header, reg.store, later, salt, order');
  }
}

=== FILE: text.dfy ===
/**
 * The two standard-library string routines the core relies on:
 * `strings.Replace(s, old, new, 1)` (first-occurrence replacement) and
 * `strconv.ParseUint(s, 10, 32)` (unsigned 32-bit decimal parsing).
 */
module Text {
  import opened Results

  // ---------------------------------------------------------------------------
  // First-occurrence search and replacement
  // ---------------------------------------------------------------------------

  /** `pat` occurs in `s` starting at index `i`. */
  predicate OccursAt(s: string, pat: string, i: nat) {
    i + |pat| <= |s| && s[i..i + |pat|] == pat
  }

  /** The index of the first occurrence of `pat` in `s` at or after `from`. */
  function IndexFrom(s: string, pat: string, from: nat): (r: Option<nat>)
    ensures r.Some? ==> from <= r.value && OccursAt(s, pat, r.value)
    ensures r.Some? ==> forall j :: from <= j < r.value ==> !OccursAt(s, pat, j)
    ensures r.None? ==> forall j :: from <= j ==> !OccursAt(s, pat, j)
    decreases |s| - from
  {
    if from + |pat| > |s| then None
    else if s[from..from + |pat|] == pat then Some(from)
    else IndexFrom(s, pat, from + 1)
  }

  /**
   * `strings.Replace(s, old, new, 1)`: the first occurrence of `target` is replaced
   * by `repl`; a string without `target` comes back unchanged. An empty `target`
   * matches at index 0, so `repl` is prepended, as Go does.
   */
  function ReplaceFirst(s: string, target: string, repl: string): (r: string)
    ensures (forall j :: !OccursAt(s, target, j)) ==> r == s
    ensures OccursAt(s, target, 0) ==> r == repl + s[|target|..]
  {
    match IndexFrom(s, target, 0)
    case None => s
    case Some(i) => s[..i] + repl + s[i + |target|..]
  }

  /** Replacement happens at the first occurrence and nowhere else. */
  lemma ReplaceFirstAt(s: string, target: string, repl: string, i: nat)
    requires OccursAt(s, target, i)
    requires forall j :: 0 <= j < i ==> !OccursAt(s, target, j)
    ensures ReplaceFirst(s, target, repl) == s[..i] + repl + s[i + |target|..]
  {
    var k := IndexFrom(s, target, 0);
    assert OccursAt(s, target, i);
  }

  /** Reinserting the removed text where it was removed gives back the input. */
  lemma ReplaceFirstInverse(s: string, target: string, i: nat)
    requires OccursAt(s, target, i)
    requires forall j :: 0 <= j < i ==> !OccursAt(s, target, j)
    ensures var r := ReplaceFirst(s, target, "");
            i <= |r| && r[..i] + target + r[i..] == s
  {
    ReplaceFirstAt(s, target, "", i);
    var r := ReplaceFirst(s, target, "");
    assert r == s[..i] + s[i + |target|..];
    assert r[..i] == s[..i];
    assert r[i..] == s[i + |target|..];
    assert s == s[..i] + s[i..i + |target|] + s[i + |target|..];
  }

  // ---------------------------------------------------------------------------
  // Unsigned decimal numbers
  // ---------------------------------------------------------------------------

  /** The largest value `strconv.ParseUint` accepts with bit size 32. */
  const MaxUint32: nat := 4294967295

  const ErrSyntax := "invalid syntax"
  const ErrRange := "value out of range"

  predicate IsDigit(c: char) {
    '0' <= c <= '9'
  }

  predicate AllDigits(s: string) {
    forall i :: 0 <= i < |s| ==> IsDigit(s[i])
  }

  function DigitValue(c: char): (d: nat)
    requires IsDigit(c)
    ensures d < 10
  {
    c as int - '0' as int
  }

  function DigitChar(d: nat): (c: char)
    requires d < 10
    ensures IsDigit(c) && DigitValue(c) == d
  {
    ('0' as int + d) as char
  }

  /** The value of a string of decimal digits, most significant digit first. */
  function DecimalValue(s: string): nat
    requires AllDigits(s)
  {
    if |s| == 0 then 0 else 10 * DecimalValue(s[..|s| - 1]) + DigitValue(s[|s| - 1])
  }

  lemma DecimalValueSnoc(s: string, c: char)
    requires AllDigits(s) && IsDigit(c)
    ensures AllDigits(s + [c])
    ensures DecimalValue(s + [c]) == 10 * DecimalValue(s) + DigitValue(c)
  {
    assert (s + [c])[..|s|] == s;
  }

  /** Extending a digit string never lowers its value. */
  lemma {:induction false} DecimalValueMonotone(s: string, a: nat, b: nat)
    requires a <= b <= |s| && AllDigits(s[..b])
    ensures AllDigits(s[..a])
    ensures DecimalValue(s[..a]) <= DecimalValue(s[..b])
    decreases b - a
  {
    assert forall i :: 0 <= i < a ==> s[..a][i] == s[..b][i];
    if a < b {
      DecimalValueMonotone(s, a, b - 1);
      assert s[..b][..b - 1] == s[..b - 1];
    }
  }

  /** A leading zero does not change the value: `"007"` denotes 7. */
  lemma {:induction false} LeadingZero(s: string)
    requires AllDigits(s)
    ensures AllDigits("0" + s)
    ensures DecimalValue("0" + s) == DecimalValue(s)
    decreases |s|
  {
    if |s| > 0 {
      var init := s[..|s| - 1];
      LeadingZero(init);
      assert ("0" + s)[..|"0" + s| - 1] == "0" + init;
    }
  }

  /** Length of the longest prefix of `s` made of decimal digits. */
  function DigitPrefixLen(s: string): (n: nat)
    ensures n <= |s| && AllDigits(s[..n])
    ensures n < |s| ==> !IsDigit(s[n])
  {
    if |s| == 0 || !IsDigit(s[0]) then 0
    else
      var m := DigitPrefixLen(s[1..]);
      assert s[..1 + m] == [s[0]] + s[1..][..m];
      1 + m
  }

  /**
   * `strconv.ParseUint(s, 10, 32)`. Digits are consumed left to right; the
   * first digit that takes the value past `MaxUint32` is a range error, and a
   * non-digit reached before any overflow (or an empty input) is a syntax
   * error. Since values only grow along a digit prefix, that amounts to
   * comparing the whole digit prefix against the maximum.
   */
  function ParseUint32(s: string): (r: Result<nat>)
    ensures r.Ok? <==> s != "" && AllDigits(s) && DecimalValue(s) <= MaxUint32
    ensures r.Ok? ==> r.value == DecimalValue(s) && r.value <= MaxUint32
    ensures r.Err? ==> r.error == ErrSyntax || r.error == ErrRange
  {
    var n := DigitPrefixLen(s);
    assert n == |s| ==> s[..n] == s;
    if DecimalValue(s[..n]) > MaxUint32 then Err(ErrRange)
    else if n == 0 || n < |s| then Err(ErrSyntax)
    else Ok(DecimalValue(s))
  }

  /** A digit prefix of length `m` lies inside the longest one. */
  lemma DigitPrefixAtLeast(s: string, m: nat)
    requires m <= |s| && AllDigits(s[..m])
    ensures DigitPrefixLen(s) >= m
  {
    forall k | 0 <= k < m
      ensures IsDigit(s[k])
    {
      assert s[..m][k] == s[k];
    }
  }

  /** The digit-prefix length is determined by where the first non-digit is. */
  lemma DigitPrefixAt(s: string, i: nat)
    requires i <= |s| && AllDigits(s[..i])
    requires i < |s| ==> !IsDigit(s[i])
    ensures DigitPrefixLen(s) == i
  {
    DigitPrefixAtLeast(s, i);
    var n := DigitPrefixLen(s);
    forall k | 0 <= k < n
      ensures IsDigit(s[k])
    {
      assert s[..n][k] == s[k];
    }
  }

  /**
   * The digit loop of `strconv.ParseUint` as Go runs it: the syntax check on
   * each byte, then the overflow check on the accumulated value.
   */
  method ScanUint32(s: string) returns (r: Result<nat>)
    ensures r == ParseUint32(s)
  {
    if |s| == 0 {
      return Err(ErrSyntax);
    }
    var n: nat := 0;
    var i := 0;
    while i < |s|
      invariant 0 <= i <= |s|
      invariant AllDigits(s[..i])
      invariant n == DecimalValue(s[..i]) <= MaxUint32
    {
      var c := s[i];
      if !IsDigit(c) {
        DigitPrefixAt(s, i);
        return Err(ErrSyntax);
      }
      assert s[..i + 1] == s[..i] + [c];
      DecimalValueSnoc(s[..i], c);
      var n1 := 10 * n + DigitValue(c);
      if n1 > MaxUint32 {
        DigitPrefixAtLeast(s, i + 1);
        DecimalValueMonotone(s, i + 1, DigitPrefixLen(s));
        return Err(ErrRange);
      }
      n := n1;
      i := i + 1;
    }
    assert s[..i] == s;
    DigitPrefixAt(s, i);
    r := Ok(n);
  }

  /** The canonical decimal spelling of `n`, without leading zeros. */
  function FormatDecimal(n: nat): (s: string)
    ensures s != "" && AllDigits(s) && DecimalValue(s) == n
  {
    if n < 10 then
      assert [DigitChar(n)][..0] == [];
      [DigitChar(n)]
    else
      var init := FormatDecimal(n / 10);
      DecimalValueSnoc(init, DigitChar(n % 10));
      init + [DigitChar(n % 10)]
  }

  /** Every 32-bit value is reachable: its decimal spelling parses back to it. */
  lemma ParseFormatRoundTrip(n: nat)
    requires n <= MaxUint32
    ensures ParseUint32(FormatDecimal(n)) == Ok(n)
  {
  }

  /** Leading zeros are accepted, so `"007"` and `"7"` address the same id. */
  lemma ParseIgnoresLeadingZero(s: string)
    requires s != ""
    ensures ParseUint32("0" + s) == ParseUint32(s)
  {
    var z := "0" + s;
    var n := DigitPrefixLen(s);
    assert z[..1 + n] == "0" + s[..n];
    assert AllDigits(z[..1 + n]);
    DigitPrefixAt(z, 1 + n);
    LeadingZero(s[..n]);
    if n == |s| {
      assert s[..n] == s;
      assert z[..1 + n] == z;
    }
  }
}

=== FILE: user_controller.dfy ===
/**
 * The user controller: it parses the path id as a 32-bit unsigned decimal,
 * calls the user service and maps the outcome to a status and envelope.
 */
module UserController {
  import opened Results
  import opened Text
  import opened Models
  import opened Repository
  import opened Http
  import UserService

  const MsgInvalidUserId := "Invalid user ID"
  const MsgInvalidBody := "Invalid request body"
  const MsgUserNotFound := "User not found"

  /** A response, and the store the request left behind. */
  datatype Handled = Handled(response: Response, store: Store)

  function JsonList(users: seq<User>): (r: seq<JsonObject>)
    ensures |r| == |users|
    ensures forall i :: 0 <= i < |users| ==> r[i] == ToJson(users[i])
  {
    seq(|users|, i requires 0 <= i < |users| => ToJson(users[i]))
  }

  /** `GetAllUsers`: 500 with the store's error, or 200 with every user once. */
  function GetAllUsers(st: Store, order: seq<nat>): (r: Response)
    requires Enumerates(order, st.users)
    ensures st.fault.Some? ==> r == ErrorResponse(StatusInternalServerError, st.fault.value)
    ensures st.fault.None? ==> r.status == StatusOK && r.body.Success? && r.body.data.UserList?
    ensures r.status == StatusOK ==>
      && |r.body.data.users| == |st.users|
      && forall u :: u in st.users.Values ==> ToJson(u) in r.body.data.users
  {
    match UserService.GetAllUsers(st, order)
    case Err(e) => ErrorResponse(StatusInternalServerError, e)
    case Ok(users) =>
      ListedAll(order, st.users);
      SuccessResponse(StatusOK, "Users retrieved successfully", UserList(JsonList(users)))
  }

  /** An enumeration of the ids lists as many entries as there are users. */
  lemma {:induction false} ListedAll(order: seq<nat>, users: map<nat, User>)
    requires Enumerates(order, users)
    ensures |order| == |users|
  {
    var ids := set i | 0 <= i < |order| :: order[i];
    assert ids == users.Keys;
    DistinctCard(order);
  }

  /** A sequence without repetitions has as many distinct elements as entries. */
  lemma {:induction false} DistinctCard(s: seq<nat>)
    requires forall i, j :: 0 <= i < j < |s| ==> s[i] != s[j]
    ensures |set i | 0 <= i < |s| :: s[i]| == |s|
  {
    if s != [] {
      var init := s[..|s| - 1];
      DistinctCard(init);
      var a := set i | 0 <= i < |init| :: init[i];
      var b := set i | 0 <= i < |s| :: s[i];
      assert b == a + {s[|s| - 1]};
      assert s[|s| - 1] !in a;
    }
  }

  /** `GetUser`: 400 for a bad id, 404 for any service error, 200 with the stored user. */
  function GetUser(pathId: string, st: Store): (r: Response)
    ensures ParseUint32(pathId).Err? ==> r == ErrorResponse(StatusBadRequest, MsgInvalidUserId)
    ensures ParseUint32(pathId).Ok? && UserService.GetUserByID(st, ParseUint32(pathId).value).Err?
            ==> r == ErrorResponse(StatusNotFound, MsgUserNotFound)
    ensures r.status == StatusOK <==> ParseUint32(pathId).Ok? && st.fault.None? && ParseUint32(pathId).value in st.users
    ensures r.status == StatusOK ==>
            r.body == Success("User retrieved successfully", UserData(ToJson(st.users[ParseUint32(pathId).value])))
  {
    match ParseUint32(pathId)
    case Err(_) => ErrorResponse(StatusBadRequest, MsgInvalidUserId)
    case Ok(id) =>
      match UserService.GetUserByID(st, id)
      case Err(_) => ErrorResponse(StatusNotFound, MsgUserNotFound)
      case Ok(u) => SuccessResponse(StatusOK, "User retrieved successfully", UserData(ToJson(u)))
  }

  /**
   * `UpdateUser`: a bad id and then a bad body are 400s before the service is
   * called; every service error, not-found included, is a 500 with its message.
   */
  function UpdateUser(pathId: string, body: Result<UpdateUserDto>, st: Store, now: int): (r: Handled)
    requires Wf(st)
    ensures Wf(r.store)
    ensures ParseUint32(pathId).Err? ==> r == Handled(ErrorResponse(StatusBadRequest, MsgInvalidUserId), st)
    ensures ParseUint32(pathId).Ok? && body.Err? ==> r == Handled(ErrorResponse(StatusBadRequest, MsgInvalidBody), st)
    ensures r.response.status != StatusOK ==> r.store == st
    ensures ParseUint32(pathId).Ok? && body.Ok? ==>
      var w := UserService.UpdateUser(st, ParseUint32(pathId).value, body.value, now);
      && r.store == w.store
      && (w.result.Err? ==> r.response == ErrorResponse(StatusInternalServerError, w.result.error))
      && (w.result.Ok? ==> r.response == SuccessResponse(StatusOK, "User updated successfully", UserData(ToJson(w.result.value))))
  {
    match ParseUint32(pathId)
    case Err(_) => Handled(ErrorResponse(StatusBadRequest, MsgInvalidUserId), st)
    case Ok(id) =>
      match body
      case Err(_) => Handled(ErrorResponse(StatusBadRequest, MsgInvalidBody), st)
      case Ok(dto) =>
        var w := UserService.UpdateUser(st, id, dto, now);
        match w.result
        case Err(e) => Handled(ErrorResponse(StatusInternalServerError, e), w.store)
        case Ok(u) => Handled(SuccessResponse(StatusOK, "User updated successfully", UserData(ToJson(u))), w.store)
  }

  /** Updating an absent user is reported as a server error, not as 404. */
  lemma UpdateMissingIs500(pathId: string, dto: UpdateUserDto, st: Store, now: int)
    requires Wf(st) && st.fault.None?
    requires ParseUint32(pathId).Ok? && ParseUint32(pathId).value !in st.users
    ensures UpdateUser(pathId, Ok(dto), st, now)
         == Handled(ErrorResponse(StatusInternalServerError, UserService.ErrUserNotFound), st)
  {
  }

  /** `DeleteUser`: 400 for a bad id, 500 for any service error, 200 with no data. */
  function DeleteUser(pathId: string, st: Store): (r: Handled)
    requires Wf(st)
    ensures Wf(r.store)
    ensures ParseUint32(pathId).Err? ==> r == Handled(ErrorResponse(StatusBadRequest, MsgInvalidUserId), st)
    ensures r.response.status != StatusOK ==> r.store == st
    ensures ParseUint32(pathId).Ok? && UserService.DeleteUser(st, ParseUint32(pathId).value).result.Err? ==>
            r == Handled(ErrorResponse(StatusInternalServerError, UserService.DeleteUser(st, ParseUint32(pathId).value).result.error), st)
    ensures r.response.status == StatusOK <==> ParseUint32(pathId).Ok? && st.fault.None? && ParseUint32(pathId).value in st.users
    ensures r.response.status == StatusOK ==>
            && r.response.body == Success("User deleted successfully", NoData)
            && r.store.users == st.users - {ParseUint32(pathId).value}
  {
    match ParseUint32(pathId)
    case Err(_) => Handled(ErrorResponse(StatusBadRequest, MsgInvalidUserId), st)
    case Ok(id) =>
      var w := UserService.DeleteUser(st, id);
      match w.result
      case Err(e) => Handled(ErrorResponse(StatusInternalServerError, e), st)
      case Ok(_) => Handled(SuccessResponse(StatusOK, "User deleted successfully", NoData), w.store)
  }

  /** A path id beyond 32 bits never reaches the store: `"4294967296"` is a 400. */
  lemma OversizedIdRejected(st: Store)
    ensures GetUser("4294967296", st) == ErrorResponse(StatusBadRequest, MsgInvalidUserId)
  {
    var s := "4294967296";
    assert AllDigits(s);
    assert DecimalValue(s[..1]) == 4;
    assert DecimalValue(s[..2]) == 42 by { assert s[..2][..1] == s[..1]; }
    assert DecimalValue(s[..3]) == 429 by { assert s[..3][..2] == s[..2]; }
    assert DecimalValue(s[..4]) == 4294 by { assert s[..4][..3] == s[..3]; }
    assert DecimalValue(s[..5]) == 42949 by { assert s[..5][..4] == s[..4]; }
    assert DecimalValue(s[..6]) == 429496 by { assert s[..6][..5] == s[..5]; }
    assert DecimalValue(s[..7]) == 4294967 by { assert s[..7][..6] == s[..6]; }
    assert DecimalValue(s[..8]) == 42949672 by { assert s[..8][..7] == s[..7]; }
    assert DecimalValue(s[..9]) == 429496729 by { assert s[..9][..8] == s[..8]; }
    assert s[..10] == s;
    assert DecimalValue(s) == 4294967296;
  }
}

=== FILE: user_service.dfy ===
/**
 * The user service: listing, lookup, creation, partial update and deletion of
 * users, each delegating to the store after its own existence checks.
 */
module UserService {
  import opened Results
  import opened Models
  import opened Repository

  const ErrEmailExists := "User with this email already exists"
  const ErrUserNotFound := "User not found"

  /** `GetAllUsers`: every stored user once, as the store lists them. */
  function GetAllUsers(st: Store, order: seq<nat>): (r: Result<seq<User>>)
    requires Enumerates(order, st.users)
    ensures r.Ok? <==> st.fault.None?
    ensures r.Ok? ==> |r.value| == |order| && forall u :: u in r.value <==> u in st.users.Values
  {
    FindAll(st, order)
  }

  /** `GetUserByID`: the stored row, or the store's error. */
  function GetUserByID(st: Store, id: nat): (r: Result<User>)
    ensures r.Ok? <==> st.fault.None? && id in st.users
    ensures r.Ok? ==> r.value == st.users[id]
  {
    FindByID(st, id)
  }

  /**
   * `CreateUser`: refuses an email that is already stored, then hashes the
   * password (a hashing failure aborts before anything is written) and stores
   * the user with role "user".
   */
  function CreateUser(st: Store, dto: RegisterDto, b: Bcrypt, salt: nat, now: int): (r: Write<User>)
    requires Wf(st)
    ensures Wf(r.store)
    ensures FindByEmail(st, dto.email).Ok? ==> r == Write(st, Err(ErrEmailExists))
    ensures b.generate(dto.password, salt).Err? ==> r.store == st && r.result.Err?
    ensures r.result.Err? ==> r.store == st
    ensures r.result.Ok? ==>
      && b.generate(dto.password, salt).Ok?
      && Inserted(st, r.store, r.result.value)
      && RegisteredFrom(r.result.value, dto, b.generate(dto.password, salt).value, now)
    ensures st.fault.None? && !EmailTaken(st.users, dto.email) && b.generate(dto.password, salt).Ok? ==> r.result.Ok?
  {
    if FindByEmail(st, dto.email).Ok? then Write(st, Err(ErrEmailExists))
    else
      var hashed := HashPassword(User(0, dto.name, dto.email, dto.password, UserRole, 0, 0), b, salt);
      if hashed.err.Some? then Write(st, Err(hashed.err.value))
      else Create(st, hashed.user, now)
  }

  /**
   * The merge `UpdateUser` performs: a non-empty name or email in the request
   * replaces the stored one; id, password, role and timestamps are untouched.
   */
  function ApplyUpdate(u: User, dto: UpdateUserDto): (v: User)
    ensures v.id == u.id && v.password == u.password && v.role == u.role
    ensures v.createdAt == u.createdAt && v.updatedAt == u.updatedAt
    ensures dto.name != "" ==> v.name == dto.name
    ensures dto.name == "" ==> v.name == u.name
    ensures dto.email != "" ==> v.email == dto.email
    ensures dto.email == "" ==> v.email == u.email
  {
    var named := if dto.name != "" then u.(name := dto.name) else u;
    if dto.email != "" then named.(email := dto.email) else named
  }

  /** Merging the same request twice is merging it once. */
  lemma ApplyUpdateIdempotent(u: User, dto: UpdateUserDto)
    ensures ApplyUpdate(ApplyUpdate(u, dto), dto) == ApplyUpdate(u, dto)
  {
  }

  /** An empty request merges to the stored user itself. */
  lemma ApplyEmptyUpdate(u: User)
    ensures ApplyUpdate(u, UpdateUserDto("", "")) == u
  {
  }

  /**
   * `UpdateUser`: an id that cannot be loaded fails with "User not found" and
   * nothing changes; otherwise the merged row is saved over that id alone.
   */
  function UpdateUser(st: Store, id: nat, dto: UpdateUserDto, now: int): (r: Write<User>)
    requires Wf(st)
    ensures Wf(r.store)
    ensures FindByID(st, id).Err? ==> r == Write(st, Err(ErrUserNotFound))
    ensures r.result.Err? ==> r.store == st
    ensures r.result.Ok? ==>
      && id in st.users
      && r.result.value == ApplyUpdate(st.users[id], dto).(updatedAt := now)
      && r.store == st.(users := st.users[id := r.result.value])
    ensures r.result.Ok? <==>
      && st.fault.None? && id in st.users
      && forall k :: k in st.users && k != id ==> st.users[k].email != ApplyUpdate(st.users[id], dto).email
  {
    match FindByID(st, id)
    case Err(_) => Write(st, Err(ErrUserNotFound))
    case Ok(u) => Update(st, ApplyUpdate(u, dto), now)
  }

  /** Sending the same update twice stores the same user as sending it once (up to `UpdatedAt`). */
  lemma UpdateUserIdempotent(st: Store, id: nat, dto: UpdateUserDto, t1: int, t2: int)
    requires Wf(st)
    requires UpdateUser(st, id, dto, t1).result.Ok?
    ensures var once := UpdateUser(st, id, dto, t1);
            var twice := UpdateUser(once.store, id, dto, t2);
            && twice.result == Ok(once.result.value.(updatedAt := t2))
            && twice.store.users == once.store.users[id := once.result.value.(updatedAt := t2)]
  {
    var once := UpdateUser(st, id, dto, t1);
    var v := once.result.value;
    ApplyUpdateIdempotent(st.users[id], dto);
    assert ApplyUpdate(v, dto) == v.(name := ApplyUpdate(v, dto).name);
    forall k | k in once.store.users && k != id
      ensures once.store.users[k].email != v.email
    {
      assert once.store.users[k] == st.users[k];
    }
  }

  /**
   * `DeleteUser`: an id that cannot be loaded fails with "User not found";
   * otherwise exactly that id is removed.
   */
  function DeleteUser(st: Store, id: nat): (r: Write<()>)
    requires Wf(st)
    ensures Wf(r.store)
    ensures FindByID(st, id).Err? ==> r == Write(st, Err(ErrUserNotFound))
    ensures r.result.Err? ==> r.store == st
    ensures r.result.Ok? <==> st.fault.None? && id in st.users
    ensures r.result.Ok? ==> r.store.users == st.users - {id}
  {
    match FindByID(st, id)
    case Err(_) => Write(st, Err(ErrUserNotFound))
    case Ok(_) => Delete(st, id)
  }
}
